=== FILE: README.md ===
# Ant-colony world and selection, modelled in Dafny

This project models the two sequential pieces of the `pants` ant-colony TSP library that everything else is built on.

- **The world graph** (`pants/world.py`):
  - A `World` wraps its nodes (or wraps positions into fresh nodes) and takes a uid from a class-wide counter.
  - It builds an N x N numpy table holding a directed `Edge` for every ordered pair of different nodes, indexed by node uid.
  - It offers `nodes`, `list_edges`, `reset_pheromone`, `data`, `find_note_by_id` and `get_pheromone_matrix`.
  - An `Edge` has a start, an end, a length function and a pheromone level (default 0.1). Its `weight` is `pheromone ** alpha * (1 / (length or 1)) ** beta`.
- **Weighted selection** (`pants/selection.py`):
  - A `SelectionMechanism` turns a weight vector into probabilities.
  - It picks an index by roulette wheel, by tournament, or uniformly.

Modules:

- `Wrappers`: `Option` and `Result`.
- `Seqs`: flattening a sequence of rows.
- `Tables`: an N x N table of optional cells and the effect of a run of cell assignments that stops at the first one raising.
- `RealSums`: sums, normalisation, running sums and natural powers over exact reals.
- `Nodes`: positions, nodes, the uid counters, and lookup by uid.
- `Edges`: the edge record, its length and its weight.
- `Worlds`: the world and its operations.
- `Selection`: the selection mechanism.

Conventions:

- **Uid counters.** The Python classes keep two process-wide counters, `World.uid` and `Node.uid`. The model threads them explicitly as a `Counters` value: each construction takes one and returns the next.
- **Randomness.** Every random draw is a parameter:
  - `u` stands for `random.random()`.
  - The drawn indices stand for the `randint` calls of a tournament.
  - One index stands for `uniform_selection`.
- **Arithmetic.** Floats are modelled as exact reals, so the roulette properties are the exact-arithmetic ones.
- **Edge table.** The table is a `seq<seq<Option<Edge>>>`. `None` marks a cell that was never assigned.
- **Errors.** The exceptions the source raises become `Failure` values.

## Model

| member | source | states |
|---|---|---|
| Nodes.NewNode | pants/world.py:253-256 | a new node takes the node counter as its uid and keeps its position; the node counter then goes up by exactly one and the world counter is untouched |
| Nodes.WrapPositions | pants/world.py:67-70 | positions become nodes one-to-one and in order; uids are consecutive from the counter, strictly increasing, and lie between the old and new counter; the counter advances by the number of positions |
| Nodes.FindNode | pants/world.py:150-159 | returns a node exactly when some stored node has the uid, and then it is the first stored node with that uid |
| Nodes.FindOwnUid | pants/world.py:157-159 | with distinct uids, looking up a stored node's uid gives back that node |
| Edges.NewEdge | pants/world.py:203-208 | the edge keeps start, end and length function; its pheromone is the given level, or 0.1 when none is given |
| Edges.LengthOfEdge | pants/world.py:215-220 | an edge's length is the length function on its start and end positions, and a change of pheromone leaves it as it was |
| Edges.Heuristic | pants/world.py:243 | `1 / (length or 1)`: a zero length gives 1, any other length gives its reciprocal, and a nonnegative length gives a positive value |
| Edges.Weight | pants/world.py:234-241 | a missing alpha is an error (checked first), then a missing beta; with both given the weight is defined |
| Edges.WeightNonnegative | pants/world.py:243-245 | with nonnegative pheromone and length and natural exponents the weight is at least 0 |
| Edges.WeightPositive | pants/world.py:243-245 | with positive pheromone and nonnegative length the weight is above 0 |
| Edges.WeightOfZeroLength | pants/world.py:243 | a zero length counts as one, so the weight is pheromone to the alpha |
| Edges.WeightMonotoneInPheromone | pants/world.py:244-245 | for nonnegative pheromone levels on an edge of nonnegative length, more pheromone never lowers the weight |
| Edges.WeightAntitoneInLength | pants/world.py:243-245 | at the same nonnegative pheromone, a longer edge of positive length never weighs more than a shorter one |
| Tables.ApplyWrites | pants/world.py:97-102 | a run of cell assignments succeeds exactly when no value raised and every cell is inside the table; otherwise the first write that raises or falls outside the table decides the error: its own error, or the index error |
| Tables.ApplyWritesCells | pants/world.py:98-102 | when no cell is assigned twice, each assigned cell ends up holding its value and every other cell is unchanged |
| Worlds.EdgeRow | pants/world.py:99-101 | every pair of the inner loop joins the start node to a node of the list whose uid differs |
| Worlds.EdgeRowCovers | pants/world.py:99-101 | the inner loop misses no node: each node whose uid differs from the start node's is paired with it |
| Worlds.EdgeRowOfMember | pants/world.py:98-101 | with distinct uids, the row of node i pairs it with every other node in list order, N - 1 pairs in all |
| Worlds.EdgePairsCount | pants/world.py:106-112 | the nested loops over N distinct nodes visit N * (N - 1) pairs |
| Worlds.EdgePairsDistinct | pants/world.py:98-102 | with distinct uids no uid pair is visited twice |
| Worlds.CreateEdges | pants/world.py:85-104 | building the table gives an N x N table, and raises the index error exactly when some pair of different nodes includes a uid of N or more |
| Worlds.CreateEdgesLink | pants/world.py:98-102 | with distinct uids below N, cell (uid of m, uid of n) holds the edge from m to n with the default pheromone |
| Worlds.CreateEdgesCells | pants/world.py:97-104 | with distinct uids below N, every pair of different nodes is linked at its uid cell, and a filled cell always joins two different uids of the list, so the diagonal stays empty |
| Worlds.WiredIsValid | pants/world.py:97-104 | a fully linked table holds an edge at every pair the loops visit |
| Worlds.Construct | pants/world.py:60-74 | the world counter always advances, even when construction fails; a node list is kept and leaves the node counter alone; a mixed or unknown list is the type error; only the type error and the index error can occur |
| Worlds.BuildWorld | pants/world.py:73-74 | the built world keeps its uid, nodes and length function; it fails, with the index error, exactly when some pair of different nodes includes a uid of N or more |
| Worlds.ConstructWrapsPositions | pants/world.py:67-70 | positions are wrapped one-to-one, in order, into nodes numbered on from the node counter |
| Worlds.ConstructValid | pants/world.py:60-74 | every successfully constructed world holds an edge at every pair the loops visit |
| Worlds.BuiltDistinctWired | pants/world.py:85-104 | two or more nodes with distinct uids that build without the index error have uids below N, every pair of different nodes linked and an empty diagonal |
| Worlds.ConstructNodesWired | pants/world.py:65-74 | a world that builds from a list of two or more nodes with distinct uids is fully linked |
| Worlds.WorldUidsIncrease | pants/world.py:61-62 | a world constructed later has a larger uid |
| Worlds.WrappedNodesFit | pants/world.py:97-102 | for two or more freshly wrapped positions the table can be built exactly when the node counter was still 0 |
| Worlds.ConstructFromPositions | pants/world.py:67-74 | a world from two or more positions is built exactly when no node was created before it; otherwise construction raises the index error |
| Worlds.SecondWorldFromPositionsFails | pants/world.py:97-102 | the first world from two positions succeeds and a second one from two positions raises the index error |
| Worlds.ConstructScoped | pants/world.py:60-74 | the world counter advances and the type error is kept for unknown lists |
| Worlds.NumberedNodesWired | pants/world.py:97-104 | nodes numbered 0..N-1 in list order build a fully linked world whose uids are exactly 0..N-1 |
| Worlds.ConstructScopedFromPositions | pants/world.py:67-74 | with per-world uids every nonempty list of positions gives a world whose nodes are numbered 0..N-1 in order, with every pair linked and the diagonal empty |
| Worlds.NodeIds | pants/world.py:76-83 | one uid per stored node, in stored order |
| Worlds.Data | pants/world.py:128-148 | one id gives the first node with that uid, or nothing; two ids give the table cell, counting negative indices from the end, or nothing for an empty cell or an index numpy rejects |
| Worlds.DataRoundTrip | pants/world.py:36-42 | on a linked world the uids from `nodes` give back the nodes; a pair of different uids gives the edge starting and ending at those nodes; a uid paired with itself gives nothing |
| Worlds.ListEdges | pants/world.py:106-112 | one edge per visited pair |
| Worlds.ListEdgesLayout | pants/world.py:106-112 | a linked world lists N * (N - 1) edges; the edge from node i to node j sits at position i * (N - 1) + (j if j < i else j - 1); no (start, end) pair is listed twice |
| Worlds.ResetPheromone | pants/world.py:114-126 | every edge in the table gets the level; empty cells stay empty; start, end and length function of every edge are unchanged |
| Worlds.ResetPheromoneDefault | pants/world.py:114 | called without a level, every edge of the table gets 0.01, empty cells stay empty, and nothing else about any edge changes |
| Worlds.ResetKeepsInvariants | pants/world.py:124-126 | a reset keeps the table complete and every link in place |
| Worlds.ResetTwice | pants/world.py:124-126 | a reset after a reset equals the last reset alone |
| Worlds.ResetListEdges | pants/world.py:114-126 | after a reset, the edge listing has the same links in the same order, all at the new level |
| Worlds.MatrixWriteValue | pants/world.py:171-175 | on a linked world with uids 0..N-1, each step of the matrix loops succeeds, stays in the table, and writes 0 for a node with itself and otherwise the pheromone of the edge between the two |
| Worlds.MatrixWritesDistinct | pants/world.py:169-175 | with distinct uids the matrix loops never write a cell twice |
| Worlds.MatrixPairsCover | pants/world.py:169-170 | with uids 0..N-1 the matrix loops reach every cell |
| Worlds.PheromoneMatrix | pants/world.py:161-177 | the matrix is N x N; it can fail only with the index error or by reading the pheromone of a missing edge, the first failing step in loop order deciding which, and it always fails when some uid is N or more |
| Worlds.PheromoneMatrixCells | pants/world.py:161-177 | on a fully linked world (distinct uids below N, hence exactly 0..N-1) the matrix is 0 on the diagonal and the pheromone of edge (m, n) at every other cell, each of which holds an edge |
| Worlds.ResetThenMatrix | pants/world.py:161-177 | right after a reset to a level, the matrix is that level off the diagonal and 0 on it |
| RealSums.CumFrom | pants/selection.py:23 | running sums: each entry is the previous one plus the next element, and the last is the whole sum |
| RealSums.Normalize | pants/selection.py:9 | every normalised element times the total is the original element |
| RealSums.ProportionalToSum | pants/selection.py:9 | nonnegative values divided by their positive sum lie in [0, 1] and add up to 1 |
| RealSums.ProportionalOrder | pants/selection.py:9 | dividing by a positive total keeps the order and the sign of every element |
| Selection.NewMechanism | pants/selection.py:7-9 | the constructor raises a division by zero exactly when the weights are nonempty and sum to zero; otherwise it keeps the weights and each probability times the total is its weight |
| Selection.ProbabilitiesDistribution | pants/selection.py:9 | nonnegative weights with a positive sum give probabilities in [0, 1] summing to 1 |
| Selection.ProbabilityOrder | pants/selection.py:9 | with a positive total, the probabilities rank the indices exactly as the weights do |
| Selection.Insert | pants/selection.py:17 | inserting into a sorted list gives a sorted list with the same elements plus the new one |
| Selection.SortPairs | pants/selection.py:17 | `sorted` returns the tuples in nondecreasing order, as a permutation of its input |
| Selection.SortSorted | pants/selection.py:17 | sorting an already sorted list changes nothing |
| Selection.SortedEnumerate | pants/selection.py:16-18 | `sorted(enumerate(weights))` is in index order, so the indices are 0..n-1 and the sorted weights are the weights as given |
| Selection.FirstAbove | pants/selection.py:28-30 | the scan stops at the first running probability above the draw, and finds none exactly when the draw reaches every one |
| Selection.Roulette | pants/selection.py:12-30 | an empty weight vector fails to unpack, and nothing else does; the only other failure is the division by zero |
| Selection.RouletteUnsorted | pants/selection.py:17-30 | roulette selection raises the division by zero exactly for a nonempty vector summing to zero, and otherwise equals the scan of the running probabilities of the weights in their given order |
| Selection.CumulativeShape | pants/selection.py:21-23 | for nonnegative weights with a positive sum the running probabilities never decrease and the last is exactly 1 |
| Selection.SegmentWidth | pants/selection.py:21-23 | the wheel segment of each index is exactly as wide as the constructor's probability for it |
| Selection.RouletteSegment | pants/selection.py:26-30 | for nonnegative weights with a positive sum and a draw in [0, 1), index i is selected exactly when the draw falls in i's segment |
| Selection.RouletteSelects | pants/selection.py:26-30 | for nonnegative weights with a positive sum and a draw in [0, 1) the wheel never falls through; it returns an in-range index, the first whose running probability exceeds the draw, and that weight is positive |
| Selection.Rounds | pants/selection.py:43-47 | q is clamped to the vector length when it is None or larger; a q of 0 or less gives no rounds |
| Selection.Contest | pants/selection.py:46-53 | no draws give no winner; otherwise the winner is one of the draws and in range |
| Selection.Tournament | pants/selection.py:32-53 | a tournament has no winner exactly when it has no rounds, and otherwise returns one of its in-range draws |
| Selection.ContestGt | pants/selection.py:46-53 | under `>` the winner is a draw of maximal probability, and the earliest such draw, since a later tie does not replace it |
| Selection.TournamentGt | pants/selection.py:32-53 | the default tournament returns the earliest draw of maximal probability |
| Selection.TournamentDefault | pants/selection.py:32-53 | called without arguments (`q = 2`, `relate = operator.gt`) the tournament plays min(2, N) rounds, has no winner only for an empty vector, and returns a draw of maximal probability, the first draw unless the second is strictly better |
| Selection.Uniform | pants/selection.py:55-61 | uniform selection raises on an empty vector and otherwise returns the draw, an index in range |
| Selection.TournamentOfOne | pants/selection.py:43-61 | a one-round tournament returns its single draw whatever the relation and the weights, exactly as uniform selection does on that draw |

## Left out

- The `name` and `description` attributes of worlds and nodes are not modelled (`pants/world.py:63-64`, `pants/world.py:257-258`). They are labels only.
- `print_pheromone_matrix` and `plot_nodes` are not modelled. They only print or plot, through pandas and matplotlib.
- The `Solver` and `Ant` classes, the dataset loaders and the test scripts are not part of this model.
- `Edge.__eq__`, `Node.__eq__`, `Position.__eq__` and `Edge.__len__` are not modelled separately. The length is `Edges.Length`.
- Node equality (`m != n` in the loops and `a != b` in the matrix loop) is compared by uid. Uids are unique when they come from the counter, so this agrees with the source's attribute-by-attribute comparison.
- The length function is an arbitrary total function of the two positions. A Python callable that raises or loops is not modelled.
- Randomness is passed in as parameters, and the model does not state the distribution of the draws.
- Nodes.FindNode: compares uids by value. The source uses `is`, which agrees for the uid objects `nodes` hands out and for small integers, but CPython may treat two equal large integers as different objects.
- Edges.Weight: the exponents are natural numbers. Real and negative exponents of `**` are not modelled.
- Selection.RouletteSelects: is proved under exact arithmetic. With floats, rounding can leave the last running probability just below the draw, and then the source returns `None`.
- Selection.NewMechanism: models the weights as Python floats, so a zero sum raises `ZeroDivisionError`. numpy scalar weights would give `inf`/`nan` instead.
- Worlds.PheromoneMatrixCells: describes the matrix only for fully linked worlds, whose uids are then exactly 0..N-1 (`Worlds.WiredIndexed`). For other worlds the model states only that the run fails whenever some uid is N or more (`Worlds.PheromoneMatrix`).
- Worlds.ConstructScoped: the correction renumbers only the nodes it wraps from positions. A list of `Node`s keeps the uids its caller gave it, so a second world built from freshly created nodes in one process still raises `IndexError`, as in the source (`Worlds.ConstructFromPositions` and `Worlds.CreateEdges` state when).
- `pants/world.py:97` and `pants/world.py:168` use the aliases `np.object` and `np.float`, which numpy 1.24 removed; there `create_edges` and `get_pheromone_matrix` raise `AttributeError`. The model assumes a numpy in which these aliases exist.
- Worlds.Data: indices are integers. numpy's other index forms (slices, booleans, arrays) are not modelled.
- The comment at `pants/selection.py:16` says roulette selection sorts the weights in ascending order. The code sorts `(index, weight)` tuples, which orders them by index, so the model follows the code (`Selection.SortedEnumerate`).
- When the draw is not below any running probability, roulette selection returns `None` (`Selection.FirstAbove`).
- The `World` constructor checks neither parameters nor node counts. Worlds with zero or one node are built, and weights may be any reals.

## Findings

| source | as written | input that shows it | evidently intended | confidence | as-written member | corrected member |
|---|---|---|---|---|---|---|
| pants/world.py:97-102 | node uids come from the class-wide counter (`pants/world.py:254-255`), but the edge table is N x N and indexed by uid | in one process, build a world from two positions (uids 0, 1), then a second world from two positions: its uids are 2 and 3, and `edges[2, 3]` raises `IndexError` | the nodes a world wraps from positions are numbered 0..N-1 so that their uids index the world's own table, as the commented-out `list(range(len(self._nodes)))` at `pants/world.py:79` suggests | not executed | Worlds.SecondWorldFromPositionsFails | Worlds.ConstructScopedFromPositions |

=== FILE: edges.dfy ===
/** `Edge`: a directed link between two nodes, its length and its weight. */
module Edges {
  import opened Wrappers
  import opened Nodes
  import opened RealSums

  /** The length function the world is built with; it sees the two positions. */
  type LengthFn = (Position, Position) -> real

  /** Pheromone of an edge created without an explicit level. */
  const DefaultPheromone: real := 0.1

  datatype Edge = Edge(start: Node, end: Node, lfunc: LengthFn, pheromone: real)

  /** `Edge(start, end, lfunc, pheromone=None)`. */
  function NewEdge(start: Node, end: Node, lfunc: LengthFn, pheromone: Option<real>): (e: Edge)
    ensures e.start == start && e.end == end && e.lfunc == lfunc
    ensures pheromone.None? ==> e.pheromone == DefaultPheromone
    ensures pheromone.Some? ==> e.pheromone == pheromone.value
  {
    Edge(start, end, lfunc, if pheromone.Some? then pheromone.value else DefaultPheromone)
  }

  /** The `length` property, recomputed on every read. */
  function Length(e: Edge): real {
    e.lfunc(e.start.position, e.end.position)
  }

  /** `1 / (length or 1)`: a zero length counts as one. */
  function Heuristic(length: real): (h: real)
    ensures length == 0.0 ==> h == 1.0
    ensures length != 0.0 ==> h * length == 1.0
    ensures length >= 0.0 ==> h > 0.0
  {
    1.0 / (if length == 0.0 then 1.0 else length)
  }

  /**
   * The length is read through the length function on every access: a new
   * edge measures the distance between its two positions, and a change of
   * pheromone leaves it as it was.
   */
  lemma LengthOfEdge(start: Node, end: Node, lfunc: LengthFn, pheromone: Option<real>, p: real)
    ensures Length(NewEdge(start, end, lfunc, pheromone)) == lfunc(start.position, end.position)
    ensures Length(NewEdge(start, end, lfunc, pheromone).(pheromone := p)) == Length(NewEdge(start, end, lfunc, pheromone))
  {
  }

  datatype WeightError = AlphaUndefined | BetaUndefined

  /**
   * `Edge.weight(alpha=..., beta=...)`: `pheromone ** alpha * (1 / (length or 1)) ** beta`,
   * raising when either exponent is missing (alpha is checked first).
   */
  function Weight(e: Edge, alpha: Option<nat>, beta: Option<nat>): (r: Result<real, WeightError>)
    ensures alpha.None? ==> r == Failure(AlphaUndefined)
    ensures alpha.Some? && beta.None? ==> r == Failure(BetaUndefined)
    ensures r.Success? <==> alpha.Some? && beta.Some?
  {
    if alpha.None? then Failure(AlphaUndefined)
    else if beta.None? then Failure(BetaUndefined)
    else Success(Pow(e.pheromone, alpha.value) * Pow(Heuristic(Length(e)), beta.value))
  }

  /** A nonnegative pheromone level on an edge of nonnegative length gives a nonnegative weight. */
  lemma WeightNonnegative(e: Edge, alpha: nat, beta: nat)
    requires e.pheromone >= 0.0 && Length(e) >= 0.0
    ensures Weight(e, Some(alpha), Some(beta)).value >= 0.0
  {
    PowNonnegative(e.pheromone, alpha);
    PowPositive(Heuristic(Length(e)), beta);
  }

  /** A positive pheromone level gives a positive weight, so such an edge can always be drawn. */
  lemma WeightPositive(e: Edge, alpha: nat, beta: nat)
    requires e.pheromone > 0.0 && Length(e) >= 0.0
    ensures Weight(e, Some(alpha), Some(beta)).value > 0.0
  {
    PowPositive(e.pheromone, alpha);
    PowPositive(Heuristic(Length(e)), beta);
  }

  /** On a zero-length edge the distance term is one, so only the pheromone term is left. */
  lemma WeightOfZeroLength(e: Edge, alpha: nat, beta: nat)
    requires Length(e) == 0.0
    ensures Weight(e, Some(alpha), Some(beta)) == Success(Pow(e.pheromone, alpha))
  {
    var a := Pow(e.pheromone, alpha);
    assert Heuristic(Length(e)) == 1.0;
    PowOfOne(beta);
    assert Weight(e, Some(alpha), Some(beta)).value == a * Pow(1.0, beta);
  }

  /** More pheromone on the same link never lowers its weight. */
  lemma WeightMonotoneInPheromone(e: Edge, p: real, q: real, alpha: nat, beta: nat)
    requires 0.0 <= p <= q && Length(e) >= 0.0
    ensures Weight(e.(pheromone := p), Some(alpha), Some(beta)).value
            <= Weight(e.(pheromone := q), Some(alpha), Some(beta)).value
  {
    var h := Pow(Heuristic(Length(e)), beta);
    PowPositive(Heuristic(Length(e)), beta);
    PowMonotone(p, q, alpha);
    assert Pow(p, alpha) * h <= Pow(q, alpha) * h;
  }

  /** Of two links with equal pheromone, the longer one never weighs more. */
  lemma WeightAntitoneInLength(e: Edge, f: Edge, alpha: nat, beta: nat)
    requires e.pheromone == f.pheromone >= 0.0
    requires 0.0 < Length(e) <= Length(f)
    ensures Weight(f, Some(alpha), Some(beta)).value <= Weight(e, Some(alpha), Some(beta)).value
  {
    var a := Pow(e.pheromone, alpha);
    PowNonnegative(e.pheromone, alpha);
    assert Heuristic(Length(f)) <= Heuristic(Length(e)) by {
      var x, y := Length(e), Length(f);
      assert Heuristic(x) == 1.0 / x && Heuristic(y) == 1.0 / y;
      assert 1.0 / y > 0.0;
      ScaleOrder(1.0 / y, 1.0 / x, x * y, x, y);
    }
    PowMonotone(Heuristic(Length(f)), Heuristic(Length(e)), beta);
    assert a * Pow(Heuristic(Length(f)), beta) <= a * Pow(Heuristic(Length(e)), beta);
  }
}

=== FILE: nodes.dfy ===
/**
 * Positions, nodes and the class-level uid counters of `Node` and `World`.
 * The counters are process-wide in the library; here they are explicit state
 * that every construction takes and hands back.
 */
module Nodes {
  import opened Wrappers

  /** `Position(x, y)`: an immutable coordinate pair. */
  datatype Position = Position(x: real, y: real)

  /** A node: its uid and the position it wraps. */
  datatype Node = Node(uid: nat, position: Position)

  /** The next uid `World` and `Node` will hand out. */
  datatype Counters = Counters(nextWorld: nat, nextNode: nat)

  /** The counters when the library is first imported. */
  const Initial := Counters(0, 0)

  /** `Node(pos)`: takes the current node counter as uid, then bumps the counter. */
  function NewNode(c: Counters, p: Position): (r: (Node, Counters))
    ensures r.0.uid == c.nextNode && r.0.position == p
    ensures r.1 == c.(nextNode := c.nextNode + 1)
  {
    (Node(c.nextNode, p), c.(nextNode := c.nextNode + 1))
  }

  /**
   * `[Node(pos) for pos in ps]`: one node per position, in order, with
   * consecutive uids starting at the current counter.
   */
  function WrapPositions(c: Counters, ps: seq<Position>): (r: (seq<Node>, Counters))
    ensures |r.0| == |ps|
    ensures forall i :: 0 <= i < |ps| ==> r.0[i] == Node(c.nextNode + i, ps[i])
    ensures r.1 == c.(nextNode := c.nextNode + |ps|)
    ensures forall i, j :: 0 <= i < j < |ps| ==> r.0[i].uid < r.0[j].uid
    ensures forall i :: 0 <= i < |ps| ==> c.nextNode <= r.0[i].uid < r.1.nextNode
    decreases |ps|
  {
    if |ps| == 0 then ([], c)
    else
      var (n, c1) := NewNode(c, ps[0]);
      var (rest, c2) := WrapPositions(c1, ps[1..]);
      ([n] + rest, c2)
  }

  /** No two nodes share a uid. */
  ghost predicate DistinctUids(ns: seq<Node>) {
    forall i, j :: 0 <= i < |ns| && 0 <= j < |ns| && i != j ==> ns[i].uid != ns[j].uid
  }

  /** Some node carries uid `id`. */
  ghost predicate HasUid(ns: seq<Node>, id: int) {
    exists i :: 0 <= i < |ns| && ns[i].uid == id
  }

  /** `ns[i]` is the first node whose uid is `id`. */
  ghost predicate FirstWithUid(ns: seq<Node>, i: int, id: int) {
    0 <= i < |ns| && ns[i].uid == id && forall j :: 0 <= j < i ==> ns[j].uid != id
  }

  /** `find_note_by_id`: the first node with the given uid, or `None`. */
  function FindNode(ns: seq<Node>, id: int): (r: Option<Node>)
    ensures r.Some? <==> HasUid(ns, id)
    ensures r.Some? ==> exists i :: FirstWithUid(ns, i, id) && ns[i] == r.value
    decreases |ns|
  {
    if |ns| == 0 then None
    else if ns[0].uid == id then
      assert FirstWithUid(ns, 0, id);
      Some(ns[0])
    else
      var r := FindNode(ns[1..], id);
      assert HasUid(ns, id) ==> HasUid(ns[1..], id) by {
        if HasUid(ns, id) {
          var i :| 0 <= i < |ns| && ns[i].uid == id;
          assert ns[1..][i - 1] == ns[i];
        }
      }
      assert r.Some? ==> exists i :: FirstWithUid(ns, i, id) && ns[i] == r.value by {
        if r.Some? {
          var i :| FirstWithUid(ns[1..], i, id) && ns[1..][i] == r.value;
          assert FirstWithUid(ns, i + 1, id);
        }
      }
      r
  }

  /** With distinct uids, looking up a node's own uid finds that node. */
  lemma {:induction false} FindOwnUid(ns: seq<Node>, i: nat)
    requires DistinctUids(ns) && i < |ns|
    ensures FindNode(ns, ns[i].uid) == Some(ns[i])
  {
    assert HasUid(ns, ns[i].uid);
    var j :| FirstWithUid(ns, j, ns[i].uid) && ns[j] == FindNode(ns, ns[i].uid).value;
  }
}

=== FILE: realsums.dfy ===
/**
 * Exact real arithmetic standing in for the floating-point sums, divisions
 * and powers of the library: sums, normalisation, running sums and powers
 * with natural-number exponents.
 */
module RealSums {

  /** Python's `sum` over exact reals, where the grouping of the additions does not matter. */
  function Sum(s: seq<real>): real {
    if |s| == 0 then 0.0 else s[0] + Sum(s[1..])
  }

  ghost predicate Nonnegative(s: seq<real>) {
    forall i :: 0 <= i < |s| ==> s[i] >= 0.0
  }

  /** Every element of `p` times `t` is the matching element of `s`. */
  ghost predicate Proportional(p: seq<real>, s: seq<real>, t: real) {
    |p| == |s| && forall k :: 0 <= k < |p| ==> p[k] * t == s[k]
  }

  /** `[x / total for x in s]`. */
  function Normalize(s: seq<real>, total: real): (r: seq<real>)
    requires total != 0.0
    ensures Proportional(r, s, total)
  {
    seq(|s|, i requires 0 <= i < |s| => s[i] / total)
  }

  /**
   * Running sums started at `acc`, as `numpy.cumsum` computes them: each
   * entry is the previous one plus the next element, and the last one is
   * `acc` plus the whole sum.
   */
  function CumFrom(acc: real, s: seq<real>): (r: seq<real>)
    ensures |r| == |s|
    ensures |s| > 0 ==> r[0] == acc + s[0]
    ensures forall k :: 0 < k < |s| ==> r[k] == r[k - 1] + s[k]
    ensures |s| > 0 ==> r[|s| - 1] == acc + Sum(s)
    decreases |s|
  {
    if |s| == 0 then []
    else
      var tail := CumFrom(acc + s[0], s[1..]);
      var r := [acc + s[0]] + tail;
      assert forall k :: 1 < k < |s| ==> s[1..][k - 1] == s[k];
      r
  }

  function CumSum(s: seq<real>): (r: seq<real>)
    ensures |r| == |s|
  {
    CumFrom(0.0, s)
  }

  lemma {:induction false} SumNonnegative(s: seq<real>)
    requires Nonnegative(s)
    ensures Sum(s) >= 0.0
  {
    if |s| > 0 {
      SumNonnegative(s[1..]);
    }
  }

  /** A nonnegative element never exceeds the sum it belongs to. */
  lemma {:induction false} ElementAtMostSum(s: seq<real>, i: nat)
    requires Nonnegative(s) && i < |s|
    ensures s[i] <= Sum(s)
  {
    SumNonnegative(s[1..]);
    if i > 0 {
      ElementAtMostSum(s[1..], i - 1);
    }
  }

  /** Scaling every element scales the sum. */
  lemma {:induction false} SumProportional(p: seq<real>, s: seq<real>, t: real)
    requires Proportional(p, s, t)
    ensures Sum(p) * t == Sum(s)
  {
    if |p| > 0 {
      SumProportional(p[1..], s[1..], t);
      calc {
        Sum(p) * t;
        (p[0] + Sum(p[1..])) * t;
        p[0] * t + Sum(p[1..]) * t;
        s[0] + Sum(s[1..]);
      }
    }
  }

  /** Scaling by a positive factor keeps the order of two reals: `x <= y` exactly when `x * t <= y * t`. */
  lemma ScaleOrder(x: real, y: real, t: real, a: real, b: real)
    requires t > 0.0 && x * t == a && y * t == b
    ensures x <= y <==> a <= b
  {
    if x <= y {
      assert (y - x) * t >= 0.0;
    } else {
      assert (x - y) * t > 0.0;
    }
  }

  /** An element between 0 and the factor scales into [0, 1]. */
  lemma ProportionalUnit(p: seq<real>, s: seq<real>, t: real, k: nat)
    requires Proportional(p, s, t) && t > 0.0 && k < |p|
    requires 0.0 <= s[k] <= t
    ensures 0.0 <= p[k] <= 1.0
  {
    ScaleOrder(0.0, p[k], t, 0.0, s[k]);
    ScaleOrder(p[k], 1.0, t, s[k], t);
  }

  /** A value that scales to the factor itself is 1. */
  lemma ScaleToOne(x: real, t: real, a: real)
    requires t > 0.0 && x * t == a && a == t
    ensures x == 1.0
  {
    ScaleOrder(x, 1.0, t, a, t);
    ScaleOrder(1.0, x, t, t, a);
  }

  /** Scaling nonnegative elements by their positive sum gives values in [0, 1] summing to 1. */
  lemma ProportionalToSum(p: seq<real>, s: seq<real>, t: real)
    requires Proportional(p, s, t) && Nonnegative(s) && t == Sum(s) && t > 0.0
    ensures forall k :: 0 <= k < |p| ==> 0.0 <= p[k] <= 1.0
    ensures Sum(p) == 1.0
  {
    forall k | 0 <= k < |p|
      ensures 0.0 <= p[k] <= 1.0
    {
      ElementAtMostSum(s, k);
      ProportionalUnit(p, s, t, k);
    }
    SumProportional(p, s, t);
    ScaleToOne(Sum(p), t, Sum(s));
  }

  /** Scaling by a positive factor keeps the order between any two elements. */
  lemma ProportionalOrder(p: seq<real>, s: seq<real>, t: real, i: nat, j: nat)
    requires Proportional(p, s, t) && t > 0.0 && i < |p| && j < |p|
    ensures p[i] <= p[j] <==> s[i] <= s[j]
    ensures p[i] > 0.0 <==> s[i] > 0.0
  {
    ScaleOrder(p[i], p[j], t, s[i], s[j]);
    ScaleOrder(p[i], 0.0, t, s[i], 0.0);
  }

  /** Running sums of nonnegative elements never decrease. */
  lemma {:induction false} CumNondecreasing(acc: real, s: seq<real>, i: nat, j: nat)
    requires Nonnegative(s) && i <= j < |s|
    ensures CumFrom(acc, s)[i] <= CumFrom(acc, s)[j]
    decreases j - i
  {
    if i < j {
      CumNondecreasing(acc, s, i, j - 1);
    }
  }

  /** `x ** n` for a natural-number exponent; `0.0 ** 0 == 1.0` as in Python. */
  function Pow(x: real, n: nat): real {
    if n == 0 then 1.0 else x * Pow(x, n - 1)
  }

  lemma {:induction false} PowNonnegative(x: real, n: nat)
    requires x >= 0.0
    ensures Pow(x, n) >= 0.0
  {
    if n > 0 {
      PowNonnegative(x, n - 1);
    }
  }

  lemma {:induction false} PowPositive(x: real, n: nat)
    requires x > 0.0
    ensures Pow(x, n) > 0.0
  {
    if n > 0 {
      PowPositive(x, n - 1);
    }
  }

  lemma {:induction false} PowOfOne(n: nat)
    ensures Pow(1.0, n) == 1.0
  {
    if n > 0 {
      PowOfOne(n - 1);
    }
  }

  /** Powers with a natural exponent are monotone on the nonnegative reals. */
  lemma {:induction false} PowMonotone(x: real, y: real, n: nat)
    requires 0.0 <= x <= y
    ensures Pow(x, n) <= Pow(y, n)
  {
    if n > 0 {
      PowMonotone(x, y, n - 1);
      PowNonnegative(x, n - 1);
      assert x * Pow(x, n - 1) <= y * Pow(x, n - 1);
      assert y * Pow(x, n - 1) <= y * Pow(y, n - 1);
    }
  }
}

=== FILE: selection.dfy ===
/**
 * The selection mechanism: probabilities from a weight vector, and the
 * roulette-wheel, tournament and uniform choosers. Every random draw is a
 * parameter (`u` for the roulette wheel, the drawn indices for a
 * tournament, one index for uniform selection), and exact reals stand in
 * for floats, so each chooser is a deterministic function of its draws.
 */
module Selection {
  import opened Wrappers
  import opened RealSums

  /** The exceptions the choosers can raise. */
  datatype SelectionError =
    | DivisionByZero  // a nonempty weight vector summing to zero
    | EmptyUnpack     // unpacking `zip(*[])` into two names
    | EmptyRange      // `randint(0, -1)`

  datatype Mechanism = Mechanism(weights: seq<real>, probabilities: seq<real>)

  /** The constructor: each probability is its weight divided by the total weight. */
  function NewMechanism(weights: seq<real>): (r: Result<Mechanism, SelectionError>)
    ensures r.Failure? <==> |weights| > 0 && Sum(weights) == 0.0
    ensures r.Failure? ==> r.error == DivisionByZero
    ensures r.Success? ==> r.value.weights == weights
    ensures r.Success? ==> Proportional(r.value.probabilities, weights, Sum(weights))
  {
    if |weights| == 0 then Success(Mechanism(weights, []))
    else if Sum(weights) == 0.0 then Failure(DivisionByZero)
    else Success(Mechanism(weights, Normalize(weights, Sum(weights))))
  }

  /** Nonnegative weights with a positive total give a probability distribution. */
  lemma ProbabilitiesDistribution(weights: seq<real>)
    requires Nonnegative(weights) && Sum(weights) > 0.0
    ensures NewMechanism(weights).Success?
    ensures var p := NewMechanism(weights).value.probabilities;
            && (forall i :: 0 <= i < |p| ==> 0.0 <= p[i] <= 1.0)
            && Sum(p) == 1.0
  {
    assert |weights| > 0;
    ProportionalToSum(NewMechanism(weights).value.probabilities, weights, Sum(weights));
  }

  /** Probabilities are ordered as their weights are, so any ranking of one ranks the other. */
  lemma ProbabilityOrder(weights: seq<real>, i: nat, j: nat)
    requires Sum(weights) > 0.0 && i < |weights| && j < |weights|
    ensures NewMechanism(weights).Success?
    ensures var p := NewMechanism(weights).value.probabilities;
            p[i] <= p[j] <==> weights[i] <= weights[j]
  {
    assert |weights| > 0;
    ProportionalOrder(NewMechanism(weights).value.probabilities, weights, Sum(weights), i, j);
  }

  // ---------------------------------------------------------------------------
  // sorted(enumerate(weights))
  // ---------------------------------------------------------------------------

  /** `enumerate(weights)`: each weight paired with its index. */
  function Enumerate(weights: seq<real>): (r: seq<(nat, real)>)
    ensures |r| == |weights|
    ensures forall i :: 0 <= i < |weights| ==> r[i].0 == i && r[i].1 == weights[i]
  {
    seq(|weights|, i requires 0 <= i < |weights| => (i, weights[i]))
  }

  /** Python's ordering of `(index, weight)` tuples: by index, then by weight. */
  predicate LexLeq(a: (nat, real), b: (nat, real)) {
    a.0 < b.0 || (a.0 == b.0 && a.1 <= b.1)
  }

  ghost predicate SortedLex(s: seq<(nat, real)>) {
    forall i, j :: 0 <= i < j < |s| ==> LexLeq(s[i], s[j])
  }

  /** Inserts `x` before the first element it does not follow. */
  function Insert(x: (nat, real), s: seq<(nat, real)>): (r: seq<(nat, real)>)
    requires SortedLex(s)
    ensures SortedLex(r)
    ensures multiset(r) == multiset(s) + multiset{x}
    ensures |r| == |s| + 1
    ensures r[0] == x || (|s| > 0 && r[0] == s[0])
  {
    if |s| == 0 then [x]
    else if LexLeq(x, s[0]) then [x] + s
    else
      var rest := Insert(x, s[1..]);
      assert s == [s[0]] + s[1..];
      [s[0]] + rest
  }

  /** `sorted`: an insertion sort of the tuples under their ordering. */
  function SortPairs(s: seq<(nat, real)>): (r: seq<(nat, real)>)
    ensures SortedLex(r)
    ensures multiset(r) == multiset(s)
  {
    if |s| == 0 then []
    else
      assert s == [s[0]] + s[1..];
      Insert(s[0], SortPairs(s[1..]))
  }

  /** Sorting an already sorted sequence leaves it as it is. */
  lemma {:induction false} SortSorted(s: seq<(nat, real)>)
    requires SortedLex(s)
    ensures SortPairs(s) == s
  {
    if |s| > 0 {
      SortSorted(s[1..]);
      assert s == [s[0]] + s[1..];
    }
  }

  /**
   * The tuples are sorted by index, so `sorted(enumerate(weights))` is
   * `enumerate(weights)` itself: the indices come out as 0..n-1 and the
   * "sorted" weights are the weights in their given order.
   */
  lemma SortedEnumerate(weights: seq<real>)
    ensures var s := SortPairs(Enumerate(weights));
            && |s| == |weights|
            && forall i :: 0 <= i < |s| ==> s[i].0 == i && s[i].1 == weights[i]
  {
    SortSorted(Enumerate(weights));
  }

  // ---------------------------------------------------------------------------
  // roulette_wheel_selection
  // ---------------------------------------------------------------------------

  function Firsts(s: seq<(nat, real)>): (r: seq<nat>)
    ensures |r| == |s|
    ensures forall i :: 0 <= i < |s| ==> r[i] == s[i].0
  {
    seq(|s|, i requires 0 <= i < |s| => s[i].0)
  }

  function Seconds(s: seq<(nat, real)>): (r: seq<real>)
    ensures |r| == |s|
    ensures forall i :: 0 <= i < |s| ==> r[i] == s[i].1
  {
    seq(|s|, i requires 0 <= i < |s| => s[i].1)
  }

  /** The first position whose running probability exceeds `u`, if any. */
  function FirstAbove(cum: seq<real>, u: real): (r: Option<nat>)
    ensures r.None? <==> forall k :: 0 <= k < |cum| ==> u >= cum[k]
    ensures r.Some? ==> r.value < |cum| && u < cum[r.value]
    ensures r.Some? ==> forall k :: 0 <= k < r.value ==> u >= cum[k]
  {
    if |cum| == 0 then None
    else if u < cum[0] then Some(0)
    else match FirstAbove(cum[1..], u)
      case None => None
      case Some(k) => Some(k + 1)
  }

  /** The running probabilities of the weights, in their given order. */
  function Cumulative(weights: seq<real>): (cum: seq<real>)
    requires Sum(weights) != 0.0
    ensures |cum| == |weights|
  {
    CumSum(Normalize(weights, Sum(weights)))
  }

  /**
   * `roulette_wheel_selection` with `u` the value of `random.random()`: the
   * first tuple of the "sorted" list whose running probability exceeds `u`
   * gives the index, and a wheel that `u` passes entirely gives `None`.
   */
  function Roulette(weights: seq<real>, u: real): (r: Result<Option<nat>, SelectionError>)
    ensures r.Failure? ==> r.error == EmptyUnpack || r.error == DivisionByZero
    ensures r == Failure(EmptyUnpack) <==> |weights| == 0
  {
    var sortedPairs := SortPairs(Enumerate(weights));
    if |sortedPairs| == 0 then
      Failure(EmptyUnpack)
    else
      var indices := Firsts(sortedPairs);
      var sortedWeights := Seconds(sortedPairs);
      var total := Sum(sortedWeights);
      if total == 0.0 then
        Failure(DivisionByZero)
      else
        match FirstAbove(CumSum(Normalize(sortedWeights, total)), u)
        case None => Success(None)
        case Some(k) => Success(Some(indices[k]))
  }

  /** Roulette selection spelled out on the weights in their given order. */
  lemma RouletteUnsorted(weights: seq<real>, u: real)
    ensures |weights| > 0 && Sum(weights) == 0.0 <==> Roulette(weights, u) == Failure(DivisionByZero)
    ensures |weights| > 0 && Sum(weights) != 0.0 ==>
              Roulette(weights, u) == Success(FirstAbove(Cumulative(weights), u))
  {
    SortedEnumerate(weights);
    var s := SortPairs(Enumerate(weights));
    assert Seconds(s) == weights;
    if |weights| > 0 && Sum(weights) != 0.0 {
      match FirstAbove(Cumulative(weights), u)
      case None =>
      case Some(k) =>
        assert Firsts(s)[k] == k;
    }
  }

  /** The running probabilities never decrease, and the last one is exactly 1. */
  lemma CumulativeShape(weights: seq<real>)
    requires Nonnegative(weights) && Sum(weights) > 0.0
    ensures var cum := Cumulative(weights);
            && (forall i, j :: 0 <= i <= j < |cum| ==> cum[i] <= cum[j])
            && cum[|cum| - 1] == 1.0
  {
    var p := Normalize(weights, Sum(weights));
    ProportionalToSum(p, weights, Sum(weights));
    assert |p| > 0;
    var cum := CumFrom(0.0, p);
    assert Cumulative(weights) == cum;
    forall i, j | 0 <= i <= j < |cum|
      ensures cum[i] <= cum[j]
    {
      CumNondecreasing(0.0, p, i, j);
    }
  }

  /** The wheel's segment for position `i`: from the previous running probability up to `i`'s own. */
  function SegmentStart(cum: seq<real>, i: nat): real
    requires i < |cum|
  {
    if i == 0 then 0.0 else cum[i - 1]
  }

  /** Each segment of the wheel is exactly as wide as the constructor's probability for its index. */
  lemma SegmentWidth(weights: seq<real>, i: nat)
    requires Sum(weights) != 0.0 && i < |weights|
    ensures NewMechanism(weights).Success?
    ensures var cum := Cumulative(weights);
            cum[i] == SegmentStart(cum, i) + NewMechanism(weights).value.probabilities[i]
  {
    assert |weights| > 0;
    var p := Normalize(weights, Sum(weights));
    var cum := CumFrom(0.0, p);
    assert Cumulative(weights) == cum;
    assert NewMechanism(weights).value.probabilities == p;
  }

  /**
   * For a draw in [0, 1) the wheel picks position `i` exactly when the draw
   * falls in `i`'s segment, whose width is `weights[i] / sum(weights)`.
   */
  lemma RouletteSegment(weights: seq<real>, u: real, i: nat)
    requires Nonnegative(weights) && Sum(weights) > 0.0
    requires 0.0 <= u < 1.0 && i < |weights|
    ensures var cum := Cumulative(weights);
            Roulette(weights, u) == Success(Some(i)) <==> SegmentStart(cum, i) <= u < cum[i]
  {
    var cum := Cumulative(weights);
    RouletteUnsorted(weights, u);
    CumulativeShape(weights);
    if SegmentStart(cum, i) <= u < cum[i] {
      forall k | 0 <= k < i
        ensures u >= cum[k]
      {
        assert cum[k] <= cum[i - 1];
      }
      var r := FirstAbove(cum, u);
      assert r.Some?;
      assert r.value == i;
    }
  }

  /**
   * With nonnegative weights, a positive total and a draw in [0, 1), the
   * wheel never falls through: it picks an index in range, the smallest
   * whose running probability exceeds the draw, and never a zero weight.
   */
  lemma RouletteSelects(weights: seq<real>, u: real) returns (i: nat)
    requires Nonnegative(weights) && Sum(weights) > 0.0
    requires 0.0 <= u < 1.0
    ensures Roulette(weights, u) == Success(Some(i))
    ensures i < |weights| && u < Cumulative(weights)[i]
    ensures forall k :: 0 <= k < i ==> u >= Cumulative(weights)[k]
    ensures weights[i] > 0.0
  {
    var cum := Cumulative(weights);
    RouletteUnsorted(weights, u);
    CumulativeShape(weights);
    var r := FirstAbove(cum, u);
    assert u < cum[|cum| - 1];
    i := r.value;
    SegmentWidth(weights, i);
    ProportionalOrder(NewMechanism(weights).value.probabilities, weights, Sum(weights), i, i);
  }

  // ---------------------------------------------------------------------------
  // tournament_selection
  // ---------------------------------------------------------------------------

  /** The number of rounds: `q`, or the vector length when `q` is `None` or larger. */
  function Rounds(q: Option<int>, n: nat): (k: nat)
    ensures k <= n
    ensures q.None? ==> k == n
    ensures q.Some? && q.value >= n ==> k == n
    ensures q.Some? && 0 <= q.value <= n ==> k == q.value
    ensures q.Some? && q.value <= 0 ==> k == 0
  {
    if q.None? || q.value > n then n
    else if q.value < 0 then 0
    else q.value
  }

  ghost predicate DrawsInRange(draws: seq<nat>, n: nat) {
    forall k :: 0 <= k < |draws| ==> draws[k] < n
  }

  /**
   * The tournament loop after the given draws: a draw replaces the current
   * best when there is none yet or when `relate` prefers its probability.
   */
  function Contest(p: seq<real>, draws: seq<nat>, relate: (real, real) -> bool): (best: Option<nat>)
    requires DrawsInRange(draws, |p|)
    ensures best.None? <==> |draws| == 0
    ensures best.Some? ==> best.value < |p| && best.value in draws
  {
    if |draws| == 0 then None
    else
      var prev := Contest(p, draws[..|draws| - 1], relate);
      var ind := draws[|draws| - 1];
      if prev.None? || relate(p[ind], p[prev.value]) then Some(ind) else prev
  }

  /** `tournament_selection(q, relate)` with `draws` the values of the `randint` calls, in order. */
  function Tournament(m: Mechanism, q: Option<int>, draws: seq<nat>, relate: (real, real) -> bool): (r: Option<nat>)
    requires |draws| == Rounds(q, |m.probabilities|)
    requires DrawsInRange(draws, |m.probabilities|)
    ensures r.None? <==> Rounds(q, |m.probabilities|) == 0
    ensures r.Some? ==> r.value < |m.probabilities| && r.value in draws
  {
    Contest(m.probabilities, draws, relate)
  }

  /** Python's `operator.gt` on probabilities, the default relation. */
  function Gt(a: real, b: real): bool {
    a > b
  }

  /**
   * Under `>` the winner is a draw of maximal probability, and the earliest
   * draw reaching that maximum: a later tie does not replace it.
   */
  lemma {:induction false} ContestGt(p: seq<real>, draws: seq<nat>) returns (k: nat)
    requires DrawsInRange(draws, |p|) && |draws| > 0
    ensures k < |draws| && Contest(p, draws, Gt) == Some(draws[k])
    ensures forall j :: 0 <= j < |draws| ==> p[draws[j]] <= p[draws[k]]
    ensures forall j :: 0 <= j < k ==> p[draws[j]] < p[draws[k]]
  {
    var last := |draws| - 1;
    var init := draws[..last];
    if last == 0 {
      k := 0;
    } else {
      var k0 := ContestGt(p, init);
      assert init[k0] == draws[k0];
      if Gt(p[draws[last]], p[draws[k0]]) {
        k := last;
        forall j | 0 <= j < last
          ensures p[draws[j]] < p[draws[k]]
        {
          assert init[j] == draws[j];
        }
      } else {
        k := k0;
        forall j | 0 <= j < |draws|
          ensures p[draws[j]] <= p[draws[k]]
        {
          if j < last {
            assert init[j] == draws[j];
          }
        }
        forall j | 0 <= j < k
          ensures p[draws[j]] < p[draws[k]]
        {
          assert init[j] == draws[j];
        }
      }
    }
  }

  /** The default tournament picks the earliest of the best-probability draws. */
  lemma TournamentGt(m: Mechanism, q: Option<int>, draws: seq<nat>) returns (k: nat)
    requires |draws| == Rounds(q, |m.probabilities|) && |draws| > 0
    requires DrawsInRange(draws, |m.probabilities|)
    ensures k < |draws| && Tournament(m, q, draws, Gt) == Some(draws[k])
    ensures forall j :: 0 <= j < |draws| ==> m.probabilities[draws[j]] <= m.probabilities[draws[k]]
    ensures forall j :: 0 <= j < k ==> m.probabilities[draws[j]] < m.probabilities[draws[k]]
  {
    k := ContestGt(m.probabilities, draws);
  }

  /** Number of rounds `tournament_selection` plays when called without `q`. */
  const DefaultQ: int := 2

  /**
   * `tournament_selection()` with both defaults, `q = 2` and `relate = operator.gt`:
   * at most two rounds, and the first draw wins unless the second is strictly better.
   */
  function TournamentDefault(m: Mechanism, draws: seq<nat>): (r: Option<nat>)
    requires |draws| == Rounds(Some(DefaultQ), |m.probabilities|)
    requires DrawsInRange(draws, |m.probabilities|)
    ensures |draws| == if |m.probabilities| < 2 then |m.probabilities| else 2
    ensures r.None? <==> |m.probabilities| == 0
    ensures r.Some? ==> r.value in draws && forall j :: 0 <= j < |draws| ==> m.probabilities[draws[j]] <= m.probabilities[r.value]
    ensures r.Some? ==> r.value == draws[0] || m.probabilities[draws[0]] < m.probabilities[r.value]
  {
    TournamentDefaultBest(m, draws);
    Tournament(m, Some(DefaultQ), draws, Gt)
  }

  lemma TournamentDefaultBest(m: Mechanism, draws: seq<nat>)
    requires |draws| == Rounds(Some(DefaultQ), |m.probabilities|)
    requires DrawsInRange(draws, |m.probabilities|)
    ensures var r := Tournament(m, Some(DefaultQ), draws, Gt);
            r.Some? ==> r.value in draws && forall j :: 0 <= j < |draws| ==> m.probabilities[draws[j]] <= m.probabilities[r.value]
    ensures var r := Tournament(m, Some(DefaultQ), draws, Gt);
            r.Some? ==> r.value == draws[0] || m.probabilities[draws[0]] < m.probabilities[r.value]
  {
    if |draws| > 0 {
      var k := TournamentGt(m, Some(DefaultQ), draws);
      if k > 0 {
        assert m.probabilities[draws[0]] < m.probabilities[draws[k]];
      }
    }
  }

  // ---------------------------------------------------------------------------
  // uniform_selection
  // ---------------------------------------------------------------------------

  /** `uniform_selection` with `draw` the value of `randint(0, n - 1)`; an empty vector makes `randint` raise. */
  function Uniform(m: Mechanism, draw: nat): (r: Result<nat, SelectionError>)
    requires |m.probabilities| > 0 ==> draw < |m.probabilities|
    ensures r.Failure? <==> |m.probabilities| == 0
    ensures r.Failure? ==> r.error == EmptyRange
    ensures r.Success? ==> r.value < |m.probabilities| && r.value == draw
  {
    if |m.probabilities| == 0 then Failure(EmptyRange) else Success(draw)
  }

  /**
   * A one-round tournament returns its single draw whatever the relation
   * and the weights: it is uniform selection on the same draw.
   */
  lemma TournamentOfOne(m: Mechanism, q: Option<int>, draw: nat, relate: (real, real) -> bool)
    requires Rounds(q, |m.probabilities|) == 1 && draw < |m.probabilities|
    ensures Tournament(m, q, [draw], relate) == Some(draw)
    ensures Uniform(m, draw) == Success(draw)
  {
  }
}

=== FILE: seqs.dfy ===
/** Flattening a sequence of rows, the order in which a nested `for` loop visits pairs. */
module Seqs {

  /** Number of elements in the first `a` rows. */
  function Offset<T>(rows: seq<seq<T>>, a: nat): nat
    requires a <= |rows|
  {
    if a == 0 then 0 else |rows[0]| + Offset(rows[1..], a - 1)
  }

  /** All rows concatenated, first row first. */
  function Flatten<T>(rows: seq<seq<T>>): (r: seq<T>)
    ensures |r| == Offset(rows, |rows|)
  {
    if |rows| == 0 then [] else rows[0] + Flatten(rows[1..])
  }

  /** When every row has length `L`, the first `a` rows hold `a * L` elements. */
  lemma {:induction false} OffsetUniform<T>(rows: seq<seq<T>>, L: nat, a: nat)
    requires a <= |rows|
    requires forall i :: 0 <= i < |rows| ==> |rows[i]| == L
    ensures Offset(rows, a) == a * L
  {
    if a > 0 {
      OffsetUniform(rows[1..], L, a - 1);
      assert |rows[0]| == L;
    }
  }

  /** Element `k` of row `a` sits at position `Offset(rows, a) + k` of the flattening. */
  lemma {:induction false} FlattenIndex<T>(rows: seq<seq<T>>, a: nat, k: nat)
    requires a < |rows| && k < |rows[a]|
    ensures Offset(rows, a) + k < |Flatten(rows)|
    ensures Flatten(rows)[Offset(rows, a) + k] == rows[a][k]
  {
    if a > 0 {
      FlattenIndex(rows[1..], a - 1, k);
      assert Flatten(rows) == rows[0] + Flatten(rows[1..]);
    }
  }

  /** Every position of the flattening comes from exactly one (row, column) place. */
  lemma {:induction false} FlattenAt<T>(rows: seq<seq<T>>, idx: nat) returns (a: nat, k: nat)
    requires idx < |Flatten(rows)|
    ensures a < |rows| && k < |rows[a]|
    ensures Offset(rows, a) + k == idx
    ensures Flatten(rows)[idx] == rows[a][k]
  {
    assert |rows| > 0;
    if idx < |rows[0]| {
      a, k := 0, idx;
    } else {
      var a', k' := FlattenAt(rows[1..], idx - |rows[0]|);
      a, k := a' + 1, k';
      assert rows[1..][a'] == rows[a];
    }
  }
}

=== FILE: tables.dfy ===
/** Square tables of optional cells and the in-place writes a nested loop makes into them. */
module Tables {
  import opened Wrappers

  /** An N x N table; `None` is a cell nothing was ever written to. */
  type Table<T> = seq<seq<Option<T>>>

  ghost predicate Square<T>(t: Table<T>, n: nat) {
    |t| == n && forall r :: 0 <= r < n ==> |t[r]| == n
  }

  /** A fresh table with no cell written. */
  function Blank<T>(n: nat): (t: Table<T>)
    ensures Square(t, n)
    ensures forall r, c :: 0 <= r < n && 0 <= c < n ==> t[r][c].None?
  {
    seq(n, r => seq(n, c => None))
  }

  /** One assignment `t[row, col] = value`; evaluating `value` may already raise. */
  datatype Write<T, E> = Write(row: nat, col: nat, value: Result<T, E>)

  function Store<T>(t: Table<T>, r: nat, c: nat, v: T): (t': Table<T>)
    requires Square(t, |t|) && r < |t| && c < |t|
    ensures Square(t', |t|)
    ensures t'[r][c] == Some(v)
    ensures forall r', c' :: 0 <= r' < |t| && 0 <= c' < |t| && (r', c') != (r, c) ==> t'[r'][c'] == t[r'][c']
  {
    t[r := t[r][c := Some(v)]]
  }

  ghost predicate InRange<T, E>(w: Write<T, E>, n: nat) {
    w.row < n && w.col < n
  }

  ghost predicate HasKey<T, E>(ws: seq<Write<T, E>>, r: nat, c: nat) {
    exists k :: 0 <= k < |ws| && ws[k].row == r && ws[k].col == c
  }

  /** No two writes target the same cell. */
  ghost predicate DistinctKeys<T, E>(ws: seq<Write<T, E>>) {
    forall i, j :: 0 <= i < j < |ws| ==> ws[i].row != ws[j].row || ws[i].col != ws[j].col
  }

  /** Index of the first write that raises or falls outside an n x n table; `|ws|` when there is none. */
  ghost function FirstBad<T, E>(ws: seq<Write<T, E>>, n: nat): (k: nat)
    ensures k <= |ws|
    ensures forall j :: 0 <= j < k ==> ws[j].value.Success? && InRange(ws[j], n)
    ensures k < |ws| ==> !(ws[k].value.Success? && InRange(ws[k], n))
    decreases |ws|
  {
    if |ws| == 0 || !(ws[0].value.Success? && InRange(ws[0], n)) then 0
    else
      var k := 1 + FirstBad(ws[1..], n);
      assert forall j :: 1 <= j < |ws| ==> ws[1..][j - 1] == ws[j];
      k
  }

  /**
   * Performs the writes in order. The first write whose value raised, or
   * whose cell lies outside the table (`outOfRange`), aborts the whole run.
   */
  function ApplyWrites<T, E>(t: Table<T>, ws: seq<Write<T, E>>, outOfRange: E): (r: Result<Table<T>, E>)
    requires Square(t, |t|)
    ensures r.Success? <==> forall k :: 0 <= k < |ws| ==> ws[k].value.Success? && InRange(ws[k], |t|)
    ensures r.Success? ==> Square(r.value, |t|)
    ensures r.Failure? && (forall k :: 0 <= k < |ws| ==> ws[k].value.Success?) ==> r.error == outOfRange
    ensures r.Failure? ==> r.error == outOfRange || exists k :: 0 <= k < |ws| && ws[k].value == Failure(r.error)
    ensures r.Failure? ==> FirstBad(ws, |t|) < |ws|
    ensures r.Failure? ==>
              r.error == (if ws[FirstBad(ws, |t|)].value.Failure? then ws[FirstBad(ws, |t|)].value.error else outOfRange)
    decreases |ws|
  {
    if |ws| == 0 then Success(t)
    else if ws[0].value.Failure? then Failure(ws[0].value.error)
    else if !(ws[0].row < |t| && ws[0].col < |t|) then Failure(outOfRange)
    else
      var r := ApplyWrites(Store(t, ws[0].row, ws[0].col, ws[0].value.value), ws[1..], outOfRange);
      assert forall k :: 1 <= k < |ws| ==> ws[1..][k - 1] == ws[k];
      r
  }

  /** A write outside the table makes the whole run fail. */
  lemma ApplyWritesOutside<T, E>(t: Table<T>, ws: seq<Write<T, E>>, outOfRange: E, k: nat)
    requires Square(t, |t|) && k < |ws| && !InRange(ws[k], |t|)
    ensures ApplyWrites(t, ws, outOfRange).Failure?
  {
    assert !(ws[k].value.Success? && InRange(ws[k], |t|));
  }

  /** Every cell some write targeted ends up written. */
  lemma {:induction false} ApplyWritesFills<T, E>(t: Table<T>, ws: seq<Write<T, E>>, outOfRange: E)
    requires Square(t, |t|)
    requires ApplyWrites(t, ws, outOfRange).Success?
    ensures forall k :: 0 <= k < |ws| ==> ApplyWrites(t, ws, outOfRange).value[ws[k].row][ws[k].col].Some?
    decreases |ws|
  {
    if |ws| > 0 {
      var t1 := Store(t, ws[0].row, ws[0].col, ws[0].value.value);
      ApplyWritesFills(t1, ws[1..], outOfRange);
      ApplyWritesKeeps(t1, ws[1..], outOfRange);
      forall k | 0 <= k < |ws|
        ensures ApplyWrites(t, ws, outOfRange).value[ws[k].row][ws[k].col].Some?
      {
        if k > 0 {
          assert ws[1..][k - 1] == ws[k];
        }
      }
    }
  }

  /** A cell that was already written stays written. */
  lemma {:induction false} ApplyWritesKeeps<T, E>(t: Table<T>, ws: seq<Write<T, E>>, outOfRange: E)
    requires Square(t, |t|)
    requires ApplyWrites(t, ws, outOfRange).Success?
    ensures forall r, c :: 0 <= r < |t| && 0 <= c < |t| && t[r][c].Some? ==> ApplyWrites(t, ws, outOfRange).value[r][c].Some?
    decreases |ws|
  {
    if |ws| > 0 {
      ApplyWritesKeeps(Store(t, ws[0].row, ws[0].col, ws[0].value.value), ws[1..], outOfRange);
    }
  }

  /**
   * With no two writes on one cell, every targeted cell holds its write's
   * value and every other cell keeps its content.
   */
  lemma {:induction false} ApplyWritesCells<T, E>(t: Table<T>, ws: seq<Write<T, E>>, outOfRange: E)
    requires Square(t, |t|)
    requires ApplyWrites(t, ws, outOfRange).Success?
    requires DistinctKeys(ws)
    ensures forall k :: 0 <= k < |ws| ==> ApplyWrites(t, ws, outOfRange).value[ws[k].row][ws[k].col] == Some(ws[k].value.value)
    ensures forall r: nat, c: nat :: r < |t| && c < |t| && !HasKey(ws, r, c) ==> ApplyWrites(t, ws, outOfRange).value[r][c] == t[r][c]
    decreases |ws|
  {
    if |ws| > 0 {
      var w := ws[0];
      var t1 := Store(t, w.row, w.col, w.value.value);
      var rest := ws[1..];
      var out := ApplyWrites(t, ws, outOfRange).value;
      assert out == ApplyWrites(t1, rest, outOfRange).value;
      assert DistinctKeys(rest) by {
        forall i, j | 0 <= i < j < |rest|
          ensures rest[i].row != rest[j].row || rest[i].col != rest[j].col
        {
          assert rest[i] == ws[i + 1] && rest[j] == ws[j + 1];
        }
      }
      ApplyWritesCells(t1, rest, outOfRange);
      assert !HasKey(rest, w.row, w.col) by {
        forall k | 0 <= k < |rest|
          ensures rest[k].row != w.row || rest[k].col != w.col
        {
          assert rest[k] == ws[k + 1];
        }
      }
      forall k | 0 <= k < |ws|
        ensures out[ws[k].row][ws[k].col] == Some(ws[k].value.value)
      {
        if k > 0 {
          assert rest[k - 1] == ws[k];
        }
      }
      forall r: nat, c: nat | r < |t| && c < |t| && !HasKey(ws, r, c)
        ensures out[r][c] == t[r][c]
      {
        assert (r, c) != (w.row, w.col);
      }
    }
  }
}

=== FILE: worlds.dfy ===
/**
 * `World`: the nodes of a problem, its length function and the N x N table
 * of directed edges indexed by node uid, with the operations on it.
 */
module Worlds {
  import opened Wrappers
  import opened Seqs
  import opened Tables
  import opened Nodes
  import opened Edges

  /** What the constructor may be handed: nodes, positions, or anything else. */
  datatype Element = NodeElem(node: Node) | PositionElem(position: Position) | OtherElem

  /** `Exception('Type of nodes not known!')`, numpy's `IndexError`, and reading `.pheromone` of `None`. */
  datatype WorldError = TypeNotKnown | IndexOutOfBounds | NoPheromoneOnNone

  datatype World = World(uid: nat, nodes: seq<Node>, lfunc: LengthFn, edges: Table<Edge>)

  /** Level `reset_pheromone` uses when called without one. */
  const DefaultResetLevel: real := 0.01

  // ---------------------------------------------------------------------------
  // The pairs the nested loops of `create_edges` and `list_edges` visit
  // ---------------------------------------------------------------------------

  /** The inner loop for start node `m`: every node of `ns` whose uid differs, in order. */
  function EdgeRow(m: Node, ns: seq<Node>): (r: seq<(Node, Node)>)
    ensures |r| <= |ns|
    ensures forall k :: 0 <= k < |r| ==> r[k].0 == m && r[k].1 in ns && r[k].1.uid != m.uid
    decreases |ns|
  {
    if |ns| == 0 then []
    else (if m.uid != ns[0].uid then [(m, ns[0])] else []) + EdgeRow(m, ns[1..])
  }

  function EdgeRows(ns: seq<Node>): (rows: seq<seq<(Node, Node)>>)
    ensures |rows| == |ns|
  {
    seq(|ns|, i requires 0 <= i < |ns| => EdgeRow(ns[i], ns))
  }

  /** Both loops together: ordered pairs of nodes with different uids, row by row. */
  function EdgePairs(ns: seq<Node>): seq<(Node, Node)> {
    Flatten(EdgeRows(ns))
  }

  /** Position of the inner-loop step `r` of row `i`, skipping the row's own node. */
  function Skip(i: nat, r: nat): nat {
    if r < i then r else r + 1
  }

  /** Where the pair (node i, node j) lands in the row-major listing of N nodes. */
  function PairPosition(n: nat, i: nat, j: nat): int {
    i * (n - 1) + (if j < i then j else j - 1)
  }

  /** Every listed pair joins two nodes of the list with different uids. */
  lemma EdgePairsMember(ns: seq<Node>, k: nat) returns (i: nat, j: nat)
    requires k < |EdgePairs(ns)|
    ensures i < |ns| && j < |ns| && EdgePairs(ns)[k] == (ns[i], ns[j]) && ns[i].uid != ns[j].uid
  {
    var rows := EdgeRows(ns);
    var a, r := FlattenAt(rows, k);
    i := a;
    var p: (Node, Node) := rows[a][r];
    assert p.1 in ns;
    j :| 0 <= j < |ns| && ns[j] == p.1;
  }

  /** The inner loop misses no node: each node whose uid differs from m's is paired with m. */
  lemma {:induction false} EdgeRowCovers(m: Node, ns: seq<Node>, j: nat) returns (r: nat)
    requires j < |ns| && m.uid != ns[j].uid
    ensures r < |EdgeRow(m, ns)| && EdgeRow(m, ns)[r] == (m, ns[j])
    decreases |ns|
  {
    var head: seq<(Node, Node)> := if m.uid != ns[0].uid then [(m, ns[0])] else [];
    assert EdgeRow(m, ns) == head + EdgeRow(m, ns[1..]);
    if j == 0 {
      r := 0;
    } else {
      var r' := EdgeRowCovers(m, ns[1..], j - 1);
      r := |head| + r';
    }
  }

  /** Every ordered pair of nodes with different uids is listed. */
  lemma EdgePairsCover(ns: seq<Node>, i: nat, j: nat) returns (k: nat)
    requires i < |ns| && j < |ns| && ns[i].uid != ns[j].uid
    ensures k < |EdgePairs(ns)| && EdgePairs(ns)[k] == (ns[i], ns[j])
  {
    var rows := EdgeRows(ns);
    var r := EdgeRowCovers(ns[i], ns, j);
    FlattenIndex(rows, i, r);
    k := Offset(rows, i) + r;
  }

  lemma {:induction false} EdgeRowAppend(m: Node, a: seq<Node>, b: seq<Node>)
    ensures EdgeRow(m, a + b) == EdgeRow(m, a) + EdgeRow(m, b)
    decreases |a|
  {
    if |a| == 0 {
      assert a + b == b;
    } else {
      var head: seq<(Node, Node)> := if m.uid != a[0].uid then [(m, a[0])] else [];
      assert (a + b)[0] == a[0];
      assert (a + b)[1..] == a[1..] + b;
      EdgeRowAppend(m, a[1..], b);
      calc {
        EdgeRow(m, a + b);
        head + EdgeRow(m, a[1..] + b);
        head + (EdgeRow(m, a[1..]) + EdgeRow(m, b));
        (head + EdgeRow(m, a[1..])) + EdgeRow(m, b);
        EdgeRow(m, a) + EdgeRow(m, b);
      }
    }
  }

  lemma {:induction false} EdgeRowOfOthers(m: Node, s: seq<Node>)
    requires forall k :: 0 <= k < |s| ==> s[k].uid != m.uid
    ensures EdgeRow(m, s) == seq(|s|, k requires 0 <= k < |s| => (m, s[k]))
    decreases |s|
  {
    if |s| > 0 {
      EdgeRowOfOthers(m, s[1..]);
    }
  }

  /** With distinct uids, row `i` pairs node `i` with every other node, in list order. */
  lemma EdgeRowOfMember(ns: seq<Node>, i: nat)
    requires DistinctUids(ns) && i < |ns|
    ensures |EdgeRow(ns[i], ns)| == |ns| - 1
    ensures forall r :: 0 <= r < |ns| - 1 ==> EdgeRow(ns[i], ns)[r] == (ns[i], ns[Skip(i, r)])
  {
    var m := ns[i];
    assert ns == ns[..i] + [ns[i]] + ns[i + 1..];
    EdgeRowAppend(m, ns[..i] + [ns[i]], ns[i + 1..]);
    EdgeRowAppend(m, ns[..i], [ns[i]]);
    assert EdgeRow(m, [ns[i]]) == [] + EdgeRow(m, []);
    EdgeRowOfOthers(m, ns[..i]);
    EdgeRowOfOthers(m, ns[i + 1..]);
  }

  /** With distinct uids every row of the listing has N - 1 pairs. */
  lemma RowsUniform(ns: seq<Node>)
    requires DistinctUids(ns) && |ns| > 0
    ensures forall i :: 0 <= i < |ns| ==> |EdgeRows(ns)[i]| == |ns| - 1
  {
    forall i | 0 <= i < |ns|
      ensures |EdgeRows(ns)[i]| == |ns| - 1
    {
      EdgeRowOfMember(ns, i);
    }
  }

  /** With distinct uids the listing has N * (N - 1) pairs. */
  lemma EdgePairsCount(ns: seq<Node>)
    requires DistinctUids(ns)
    ensures |EdgePairs(ns)| == |ns| * (|ns| - 1)
  {
    if |ns| > 0 {
      RowsUniform(ns);
      OffsetUniform(EdgeRows(ns), |ns| - 1, |ns|);
    }
  }

  /** With distinct uids, row `i` of the listing starts at position `i * (N - 1)`. */
  lemma EdgePairAt(ns: seq<Node>, i: nat, r: nat)
    requires DistinctUids(ns) && i < |ns| && r < |ns| - 1
    ensures i * (|ns| - 1) + r < |EdgePairs(ns)|
    ensures EdgePairs(ns)[i * (|ns| - 1) + r] == (ns[i], ns[Skip(i, r)])
  {
    var rows := EdgeRows(ns);
    RowsUniform(ns);
    OffsetUniform(rows, |ns| - 1, i);
    FlattenIndex(rows, i, r);
    EdgeRowOfMember(ns, i);
  }

  /** With distinct uids two different positions of the listing hold different uid keys. */
  lemma EdgePairsDiffer(ns: seq<Node>, k1: nat, k2: nat)
    requires DistinctUids(ns) && k1 < k2 < |EdgePairs(ns)|
    ensures EdgePairs(ns)[k1].0.uid != EdgePairs(ns)[k2].0.uid || EdgePairs(ns)[k1].1.uid != EdgePairs(ns)[k2].1.uid
  {
    var rows := EdgeRows(ns);
    var a1, r1 := FlattenAt(rows, k1);
    var a2, r2 := FlattenAt(rows, k2);
    if a1 == a2 {
      EdgeRowOfMember(ns, a1);
      assert r1 != r2;
      assert Skip(a1, r1) != Skip(a1, r2);
    } else {
      assert EdgePairs(ns)[k1].0 == ns[a1] && EdgePairs(ns)[k2].0 == ns[a2];
    }
  }

  /** With distinct uids no (start uid, end uid) key is listed twice. */
  lemma EdgePairsDistinct(ns: seq<Node>)
    requires DistinctUids(ns)
    ensures forall k1, k2 :: 0 <= k1 < k2 < |EdgePairs(ns)| ==>
              EdgePairs(ns)[k1].0.uid != EdgePairs(ns)[k2].0.uid || EdgePairs(ns)[k1].1.uid != EdgePairs(ns)[k2].1.uid
  {
    forall k1, k2 | 0 <= k1 < k2 < |EdgePairs(ns)|
      ensures EdgePairs(ns)[k1].0.uid != EdgePairs(ns)[k2].0.uid || EdgePairs(ns)[k1].1.uid != EdgePairs(ns)[k2].1.uid
    {
      EdgePairsDiffer(ns, k1, k2);
    }
  }

  // ---------------------------------------------------------------------------
  // create_edges
  // ---------------------------------------------------------------------------

  function EdgeWrites(ns: seq<Node>, lfunc: LengthFn): (ws: seq<Write<Edge, WorldError>>)
    ensures |ws| == |EdgePairs(ns)|
  {
    var ps := EdgePairs(ns);
    seq(|ps|, k requires 0 <= k < |ps| =>
      Write(ps[k].0.uid, ps[k].1.uid, Success(NewEdge(ps[k].0, ps[k].1, lfunc, None))))
  }

  /** Some pair of distinct nodes has a uid the N x N table cannot index. */
  ghost predicate OutOfTable(ns: seq<Node>) {
    exists i, j :: 0 <= i < |ns| && 0 <= j < |ns| && ns[i].uid != ns[j].uid && (ns[i].uid >= |ns| || ns[j].uid >= |ns|)
  }

  /**
   * `create_edges`: an N x N table, then `edges[m.uid, n.uid] = Edge(m, n)`
   * for every ordered pair with `m != n`. It raises `IndexError` exactly
   * when some pair of distinct nodes has a uid of N or more.
   */
  function CreateEdges(ns: seq<Node>, lfunc: LengthFn): (r: Result<Table<Edge>, WorldError>)
    ensures r.Success? ==> Square(r.value, |ns|)
    ensures r.Failure? <==> OutOfTable(ns)
    ensures r.Failure? ==> r.error == IndexOutOfBounds
  {
    EdgeWritesFit(ns, lfunc);
    ApplyWrites(Blank(|ns|), EdgeWrites(ns, lfunc), IndexOutOfBounds)
  }

  /** The run of edge writes fails exactly on a uid the table cannot index. */
  lemma EdgeWritesFit(ns: seq<Node>, lfunc: LengthFn)
    ensures ApplyWrites(Blank(|ns|), EdgeWrites(ns, lfunc), IndexOutOfBounds).Failure? <==> OutOfTable(ns)
    ensures ApplyWrites(Blank(|ns|), EdgeWrites(ns, lfunc), IndexOutOfBounds).Failure? ==>
              ApplyWrites(Blank(|ns|), EdgeWrites(ns, lfunc), IndexOutOfBounds).error == IndexOutOfBounds
  {
    var ws := EdgeWrites(ns, lfunc);
    var ps := EdgePairs(ns);
    var run := ApplyWrites(Blank(|ns|), ws, IndexOutOfBounds);
    if OutOfTable(ns) {
      var i, j :| 0 <= i < |ns| && 0 <= j < |ns| && ns[i].uid != ns[j].uid && (ns[i].uid >= |ns| || ns[j].uid >= |ns|);
      var k := EdgePairsCover(ns, i, j);
      assert !InRange(ws[k], |ns|);
    }
    if run.Failure? {
      var k :| 0 <= k < |ws| && !(ws[k].value.Success? && InRange(ws[k], |ns|));
      var i, j := EdgePairsMember(ns, k);
      assert ns[i].uid != ns[j].uid && (ns[i].uid >= |ns| || ns[j].uid >= |ns|);
    }
  }

  lemma EdgeWritesDistinct(ns: seq<Node>, lfunc: LengthFn)
    requires DistinctUids(ns)
    ensures DistinctKeys(EdgeWrites(ns, lfunc))
  {
    EdgePairsDistinct(ns);
  }

  lemma CreateEdgesSucceeds(ns: seq<Node>, lfunc: LengthFn)
    requires forall i :: 0 <= i < |ns| ==> ns[i].uid < |ns|
    ensures CreateEdges(ns, lfunc).Success?
  {
  }

  lemma CreateEdgesLink(ns: seq<Node>, lfunc: LengthFn, i: nat, j: nat)
    requires DistinctUids(ns)
    requires forall i :: 0 <= i < |ns| ==> ns[i].uid < |ns|
    requires i < |ns| && j < |ns| && i != j
    ensures CreateEdges(ns, lfunc).Success?
    ensures CreateEdges(ns, lfunc).value[ns[i].uid][ns[j].uid] == Some(Edge(ns[i], ns[j], lfunc, DefaultPheromone))
  {
    var ws := EdgeWrites(ns, lfunc);
    CreateEdgesSucceeds(ns, lfunc);
    EdgeWritesDistinct(ns, lfunc);
    ApplyWritesCells(Blank(|ns|), ws, IndexOutOfBounds);
    var k := EdgePairsCover(ns, i, j);
    assert ws[k].row == ns[i].uid && ws[k].col == ns[j].uid;
  }

  /** An edge in cell (r, c) of the table can only link two different uids of the list. */
  ghost predicate OnlyLinkAt(t: Table<Edge>, ns: seq<Node>, r: int, c: int)
    requires 0 <= r < |t| && 0 <= c < |t[r]|
  {
    t[r][c].Some? ==> r != c && HasUid(ns, r) && HasUid(ns, c)
  }

  lemma CreateEdgesOnlyLinks(ns: seq<Node>, lfunc: LengthFn, r: nat, c: nat)
    requires DistinctUids(ns)
    requires forall i :: 0 <= i < |ns| ==> ns[i].uid < |ns|
    requires r < |ns| && c < |ns|
    ensures CreateEdges(ns, lfunc).Success?
    ensures OnlyLinkAt(CreateEdges(ns, lfunc).value, ns, r, c)
  {
    var ws := EdgeWrites(ns, lfunc);
    CreateEdgesSucceeds(ns, lfunc);
    EdgeWritesDistinct(ns, lfunc);
    ApplyWritesCells(Blank(|ns|), ws, IndexOutOfBounds);
    if CreateEdges(ns, lfunc).value[r][c].Some? {
      assert HasKey(ws, r, c);
      var k :| 0 <= k < |ws| && ws[k].row == r && ws[k].col == c;
      var i, j := EdgePairsMember(ns, k);
    }
  }

  /**
   * With distinct uids below N, the table holds `Edge(m, n)` (default
   * pheromone) at `(m.uid, n.uid)` for every pair of different nodes, and
   * every other cell, the diagonal included, stays empty.
   */
  lemma CreateEdgesCells(ns: seq<Node>, lfunc: LengthFn)
    requires DistinctUids(ns)
    requires forall i :: 0 <= i < |ns| ==> ns[i].uid < |ns|
    ensures CreateEdges(ns, lfunc).Success?
    ensures forall i, j :: 0 <= i < |ns| && 0 <= j < |ns| && i != j ==>
              CreateEdges(ns, lfunc).value[ns[i].uid][ns[j].uid] == Some(Edge(ns[i], ns[j], lfunc, DefaultPheromone))
    ensures forall r, c :: 0 <= r < |ns| && 0 <= c < |ns| ==> OnlyLinkAt(CreateEdges(ns, lfunc).value, ns, r, c)
  {
    CreateEdgesSucceeds(ns, lfunc);
    forall i, j | 0 <= i < |ns| && 0 <= j < |ns| && i != j
      ensures CreateEdges(ns, lfunc).value[ns[i].uid][ns[j].uid] == Some(Edge(ns[i], ns[j], lfunc, DefaultPheromone))
    {
      CreateEdgesLink(ns, lfunc, i, j);
    }
    forall r, c | 0 <= r < |ns| && 0 <= c < |ns|
      ensures OnlyLinkAt(CreateEdges(ns, lfunc).value, ns, r, c)
    {
      CreateEdgesOnlyLinks(ns, lfunc, r, c);
    }
  }

  // ---------------------------------------------------------------------------
  // The world and its invariants
  // ---------------------------------------------------------------------------

  /** The table is N x N and holds an edge at every listed pair: what a successful construction leaves. */
  ghost predicate Valid(w: World) {
    && Square(w.edges, |w.nodes|)
    && forall p :: p in EdgePairs(w.nodes) ==>
         p.0.uid < |w.nodes| && p.1.uid < |w.nodes| && w.edges[p.0.uid][p.1.uid].Some?
  }

  /** Cell (uid of node i, uid of node j) holds the edge from node i to node j. */
  ghost predicate Links(w: World, i: int, j: int) {
    && 0 <= i < |w.nodes| && 0 <= j < |w.nodes|
    && w.nodes[i].uid < |w.edges| && w.nodes[j].uid < |w.edges[w.nodes[i].uid]|
    && var cell := w.edges[w.nodes[i].uid][w.nodes[j].uid];
       cell.Some? && cell.value.start == w.nodes[i] && cell.value.end == w.nodes[j] && cell.value.lfunc == w.lfunc
  }

  /** Distinct uids below N, every pair of different nodes linked, the diagonal empty. */
  ghost predicate Wired(w: World) {
    && Square(w.edges, |w.nodes|)
    && DistinctUids(w.nodes)
    && (forall i :: 0 <= i < |w.nodes| ==> w.nodes[i].uid < |w.nodes|)
    && (forall i, j :: 0 <= i < |w.nodes| && 0 <= j < |w.nodes| && i != j ==> Links(w, i, j))
    && (forall r :: 0 <= r < |w.nodes| ==> w.edges[r][r].None?)
  }

  /** The uids are exactly 0..N-1, each carried by one node. */
  ghost predicate Indexed(ns: seq<Node>) {
    && DistinctUids(ns)
    && (forall i :: 0 <= i < |ns| ==> ns[i].uid < |ns|)
    && (forall r :: 0 <= r < |ns| ==> HasUid(ns, r))
  }

  /** The set of uids the nodes carry. */
  ghost function UidSet(ns: seq<Node>): set<nat> {
    set i | 0 <= i < |ns| :: ns[i].uid
  }

  lemma {:induction false} UidSetSize(ns: seq<Node>)
    requires DistinctUids(ns)
    ensures |UidSet(ns)| == |ns|
    decreases |ns|
  {
    if |ns| > 0 {
      var rest := ns[1..];
      assert DistinctUids(rest) by {
        forall i, j | 0 <= i < |rest| && 0 <= j < |rest| && i != j
          ensures rest[i].uid != rest[j].uid
        {
          assert rest[i] == ns[i + 1] && rest[j] == ns[j + 1];
        }
      }
      UidSetSize(rest);
      assert UidSet(ns) == {ns[0].uid} + UidSet(rest) by {
        forall u | u in UidSet(ns)
          ensures u in {ns[0].uid} + UidSet(rest)
        {
          var i :| 0 <= i < |ns| && ns[i].uid == u;
          if i > 0 {
            assert rest[i - 1] == ns[i];
          }
        }
        forall u | u in UidSet(rest)
          ensures u in UidSet(ns)
        {
          var i :| 0 <= i < |rest| && rest[i].uid == u;
          assert ns[i + 1] == rest[i];
        }
      }
      assert ns[0].uid !in UidSet(rest) by {
        forall i | 0 <= i < |rest|
          ensures rest[i].uid != ns[0].uid
        {
          assert rest[i] == ns[i + 1];
        }
      }
    }
  }

  /** The naturals below n. */
  ghost function Below(n: nat): set<nat> {
    if n == 0 then {} else Below(n - 1) + {n - 1}
  }

  lemma {:induction false} BelowMembers(n: nat)
    ensures forall r: nat :: r in Below(n) <==> r < n
  {
    if n > 0 {
      BelowMembers(n - 1);
    }
  }

  lemma {:induction false} BelowSize(n: nat)
    ensures |Below(n)| == n
  {
    if n > 0 {
      var b := Below(n - 1);
      BelowSize(n - 1);
      BelowMembers(n - 1);
      assert n - 1 !in b;
      assert |b + {n - 1}| == |b| + 1;
    }
  }

  /** A set of naturals below n with n elements is all of them. */
  lemma {:induction false} FullBelow(u: set<nat>, n: nat)
    requires u <= Below(n) && |u| == n
    ensures u == Below(n)
  {
    BelowSize(n);
    BelowMembers(n);
    if r :| r in Below(n) && r !in u {
      assert u <= Below(n) - {r};
      assert |Below(n) - {r}| == n - 1;
      SubsetSize(u, Below(n) - {r});
      assert false;
    }
  }

  lemma {:induction false} SubsetSize(a: set<nat>, b: set<nat>)
    requires a <= b
    ensures |a| <= |b|
    decreases |b|
  {
    if a != {} {
      var x :| x in a;
      SubsetSize(a - {x}, b - {x});
    }
  }

  /** N distinct uids below N are exactly 0..N-1 (pigeonhole). */
  lemma DistinctBelowIndexed(ns: seq<Node>)
    requires DistinctUids(ns) && forall i :: 0 <= i < |ns| ==> ns[i].uid < |ns|
    ensures Indexed(ns)
  {
    UidSetSize(ns);
    BelowMembers(|ns|);
    FullBelow(UidSet(ns), |ns|);
    forall r | 0 <= r < |ns|
      ensures HasUid(ns, r)
    {
      assert r in Below(|ns|);
      assert r in UidSet(ns);
    }
  }

  /** A wired world's uids are exactly 0..N-1. */
  lemma WiredIndexed(w: World)
    requires Wired(w)
    ensures Indexed(w.nodes)
  {
    DistinctBelowIndexed(w.nodes);
  }

  lemma WiredIsValid(w: World)
    requires Wired(w)
    ensures Valid(w)
  {
    forall p | p in EdgePairs(w.nodes)
      ensures p.0.uid < |w.nodes| && p.1.uid < |w.nodes| && w.edges[p.0.uid][p.1.uid].Some?
    {
      var k :| 0 <= k < |EdgePairs(w.nodes)| && EdgePairs(w.nodes)[k] == p;
      var i, j := EdgePairsMember(w.nodes, k);
      assert Links(w, i, j);
    }
  }

  predicate AllNodes(elems: seq<Element>) {
    forall k :: 0 <= k < |elems| ==> elems[k].NodeElem?
  }

  predicate AllPositions(elems: seq<Element>) {
    forall k :: 0 <= k < |elems| ==> elems[k].PositionElem?
  }

  function NodesOf(elems: seq<Element>): (ns: seq<Node>)
    requires AllNodes(elems)
    ensures |ns| == |elems|
  {
    seq(|elems|, k requires 0 <= k < |elems| => elems[k].node)
  }

  function PositionsOf(elems: seq<Element>): (ps: seq<Position>)
    requires AllPositions(elems)
    ensures |ps| == |elems|
  {
    seq(|elems|, k requires 0 <= k < |elems| => elems[k].position)
  }

  function BuildWorld(uid: nat, ns: seq<Node>, lfunc: LengthFn): (r: Result<World, WorldError>)
    ensures r.Success? ==> r.value.uid == uid && r.value.nodes == ns && r.value.lfunc == lfunc
    ensures r.Failure? ==> r.error == IndexOutOfBounds
    ensures r.Success? <==> !OutOfTable(ns)
  {
    assert forall k :: 0 <= k < |EdgeWrites(ns, lfunc)| ==> EdgeWrites(ns, lfunc)[k].value.Success?;
    match CreateEdges(ns, lfunc)
    case Success(t) => Success(World(uid, ns, lfunc, t))
    case Failure(e) => Failure(e)
  }

  /**
   * `World(nodes, lfunc)`: takes the world counter as uid (before anything
   * can fail); keeps a list of nodes as given (the empty list included),
   * wraps a list of positions into fresh nodes, refuses any other list,
   * then builds the edge table.
   */
  function Construct(c: Counters, elems: seq<Element>, lfunc: LengthFn): (r: (Counters, Result<World, WorldError>))
    ensures r.0.nextWorld == c.nextWorld + 1
    ensures r.1.Success? ==> r.1.value.uid == c.nextWorld && r.1.value.lfunc == lfunc
    ensures AllNodes(elems) ==> r.0.nextNode == c.nextNode && (r.1.Success? ==> r.1.value.nodes == NodesOf(elems))
    ensures !AllNodes(elems) && AllPositions(elems) ==> r.0.nextNode == c.nextNode + |elems|
    ensures !AllNodes(elems) && !AllPositions(elems) ==> r.0.nextNode == c.nextNode && r.1 == Failure(TypeNotKnown)
    ensures r.1.Failure? ==> r.1.error == TypeNotKnown || r.1.error == IndexOutOfBounds
  {
    var c1 := c.(nextWorld := c.nextWorld + 1);
    if AllNodes(elems) then
      (c1, BuildWorld(c.nextWorld, NodesOf(elems), lfunc))
    else if AllPositions(elems) then
      var wrapped := WrapPositions(c1, PositionsOf(elems));
      (wrapped.1, BuildWorld(c.nextWorld, wrapped.0, lfunc))
    else
      (c1, Failure(TypeNotKnown))
  }

  lemma ConstructPositionsBranch(c: Counters, elems: seq<Element>, lfunc: LengthFn, c1: Counters)
    requires !AllNodes(elems) && AllPositions(elems)
    requires c1 == c.(nextWorld := c.nextWorld + 1)
    ensures Construct(c, elems, lfunc).1 == BuildWorld(c.nextWorld, WrapPositions(c1, PositionsOf(elems)).0, lfunc)
  {
  }

  /**
   * Positions are wrapped one-to-one and in order into nodes numbered on
   * from the node counter; an empty list is kept as a list of nodes.
   */
  lemma ConstructWrapsPositions(c: Counters, elems: seq<Element>, lfunc: LengthFn)
    requires AllPositions(elems) && |elems| > 0
    ensures Construct(c, elems, lfunc).0.nextNode == c.nextNode + |elems|
    ensures var r := Construct(c, elems, lfunc).1;
            r.Success? ==>
              && |r.value.nodes| == |elems|
              && forall k :: 0 <= k < |elems| ==> r.value.nodes[k] == Node(c.nextNode + k, elems[k].position)
  {
    assert !AllNodes(elems) by {
      assert !elems[0].NodeElem?;
    }
    var c1 := c.(nextWorld := c.nextWorld + 1);
    ConstructPositionsBranch(c, elems, lfunc, c1);
  }

  /** Whatever list it was built from, a constructed world satisfies the class invariant. */
  lemma ConstructValid(c: Counters, elems: seq<Element>, lfunc: LengthFn)
    requires Construct(c, elems, lfunc).1.Success?
    ensures Valid(Construct(c, elems, lfunc).1.value)
  {
    var w := Construct(c, elems, lfunc).1.value;
    var ws := EdgeWrites(w.nodes, lfunc);
    assert CreateEdges(w.nodes, lfunc).Success? && w.edges == CreateEdges(w.nodes, lfunc).value;
    ApplyWritesFills(Blank(|w.nodes|), ws, IndexOutOfBounds);
    forall p | p in EdgePairs(w.nodes)
      ensures p.0.uid < |w.nodes| && p.1.uid < |w.nodes| && w.edges[p.0.uid][p.1.uid].Some?
    {
      var k :| 0 <= k < |EdgePairs(w.nodes)| && EdgePairs(w.nodes)[k] == p;
      assert ws[k].row == p.0.uid && ws[k].col == p.1.uid;
    }
  }

  /** Each construction, even a failed one, hands out a larger world uid than the one before. */
  lemma WorldUidsIncrease(c: Counters, e1: seq<Element>, e2: seq<Element>, lfunc: LengthFn)
    ensures Construct(c, e1, lfunc).1.Success? && Construct(Construct(c, e1, lfunc).0, e2, lfunc).1.Success? ==>
              Construct(c, e1, lfunc).1.value.uid < Construct(Construct(c, e1, lfunc).0, e2, lfunc).1.value.uid
  {
  }

  /** Wrapped positions fit the table exactly when their uids start at 0. */
  lemma WrappedNodesFit(c: Counters, ps: seq<Position>, lfunc: LengthFn)
    requires |ps| >= 2
    ensures CreateEdges(WrapPositions(c, ps).0, lfunc).Success? <==> c.nextNode == 0
    ensures CreateEdges(WrapPositions(c, ps).0, lfunc).Failure? ==> CreateEdges(WrapPositions(c, ps).0, lfunc).error == IndexOutOfBounds
  {
    var ns := WrapPositions(c, ps).0;
    var n := |ns|;
    if c.nextNode == 0 {
      assert forall i :: 0 <= i < n ==> ns[i].uid < n;
    } else {
      assert ns[0].uid != ns[n - 1].uid && ns[n - 1].uid >= n;
    }
  }

  /**
   * As written, a world built from two or more positions gets an edge table
   * only when no node was created before in the process: the uids continue
   * the process-wide counter while the table is indexed from 0 to N-1.
   */
  lemma ConstructFromPositions(c: Counters, elems: seq<Element>, lfunc: LengthFn)
    requires AllPositions(elems) && |elems| >= 2
    ensures Construct(c, elems, lfunc).1.Success? <==> c.nextNode == 0
    ensures Construct(c, elems, lfunc).1.Failure? ==> Construct(c, elems, lfunc).1.error == IndexOutOfBounds
  {
    assert !AllNodes(elems) by {
      assert !elems[0].NodeElem?;
    }
    var c1 := c.(nextWorld := c.nextWorld + 1);
    var ns := WrapPositions(c1, PositionsOf(elems)).0;
    WrappedNodesFit(c1, PositionsOf(elems), lfunc);
    ConstructPositionsBranch(c, elems, lfunc, c1);
  }

  /** The first world built from two positions succeeds; a second one in the same process raises `IndexError`. */
  lemma SecondWorldFromPositionsFails(lfunc: LengthFn)
    ensures var elems := [PositionElem(Position(0.0, 0.0)), PositionElem(Position(1.0, 0.0))];
            var (c1, first) := Construct(Initial, elems, lfunc);
            first.Success? && Construct(c1, elems, lfunc).1 == Failure(IndexOutOfBounds)
  {
    var elems := [PositionElem(Position(0.0, 0.0)), PositionElem(Position(1.0, 0.0))];
    ConstructFromPositions(Initial, elems, lfunc);
    var c1 := Construct(Initial, elems, lfunc).0;
    assert !AllNodes(elems) by {
      assert !elems[0].NodeElem?;
    }
    assert c1.nextNode == 2;
    ConstructFromPositions(c1, elems, lfunc);
  }

  /**
   * Corrected construction: nodes wrapped from positions get uids allocated
   * per world, starting at 0, so they index the world's own N x N table.
   * A list of nodes is kept with the uids its caller gave it, as before.
   */
  function ConstructScoped(c: Counters, elems: seq<Element>, lfunc: LengthFn): (r: (Counters, Result<World, WorldError>))
    ensures r.0 == c.(nextWorld := c.nextWorld + 1)
    ensures r.1.Success? ==> r.1.value.uid == c.nextWorld && r.1.value.lfunc == lfunc
    ensures !AllNodes(elems) && !AllPositions(elems) ==> r.1 == Failure(TypeNotKnown)
  {
    var c1 := c.(nextWorld := c.nextWorld + 1);
    if AllNodes(elems) then
      (c1, BuildWorld(c.nextWorld, NodesOf(elems), lfunc))
    else if AllPositions(elems) then
      (c1, BuildWorld(c.nextWorld, WrapPositions(Counters(0, 0), PositionsOf(elems)).0, lfunc))
    else
      (c1, Failure(TypeNotKnown))
  }

  lemma ConstructScopedPositionsBranch(c: Counters, elems: seq<Element>, lfunc: LengthFn)
    requires AllPositions(elems) && !AllNodes(elems)
    ensures ConstructScoped(c, elems, lfunc).1 == BuildWorld(c.nextWorld, WrapPositions(Counters(0, 0), PositionsOf(elems)).0, lfunc)
  {
  }

  /** Nodes numbered 0..N-1 in list order give a wired world whose uids are exactly 0..N-1. */
  lemma NumberedNodesWired(uid: nat, ns: seq<Node>, lfunc: LengthFn)
    requires forall k :: 0 <= k < |ns| ==> ns[k].uid == k
    ensures BuildWorld(uid, ns, lfunc).Success?
    ensures Wired(BuildWorld(uid, ns, lfunc).value) && Indexed(ns)
  {
    CreateEdgesCells(ns, lfunc);
    var w := BuildWorld(uid, ns, lfunc).value;
    assert w.edges == CreateEdges(ns, lfunc).value;
    forall r | 0 <= r < |ns|
      ensures HasUid(ns, r)
    {
      assert ns[r].uid == r;
    }
    forall i, j | 0 <= i < |ns| && 0 <= j < |ns| && i != j
      ensures Links(w, i, j)
    {
    }
    forall r | 0 <= r < |ns|
      ensures w.edges[r][r].None?
    {
      assert OnlyLinkAt(w.edges, ns, r, r);
    }
  }

  /**
   * Two or more nodes with distinct uids that build without an index error
   * give a wired world: each node has a partner with another uid, so a
   * successful build leaves no uid of N or more.
   */
  lemma BuiltDistinctWired(uid: nat, ns: seq<Node>, lfunc: LengthFn)
    requires |ns| >= 2 && DistinctUids(ns)
    requires BuildWorld(uid, ns, lfunc).Success?
    ensures Wired(BuildWorld(uid, ns, lfunc).value)
  {
    forall i | 0 <= i < |ns|
      ensures ns[i].uid < |ns|
    {
      var j := if i == 0 then 1 else 0;
      assert ns[i].uid != ns[j].uid;
      assert !(ns[i].uid >= |ns| || ns[j].uid >= |ns|);
    }
    CreateEdgesCells(ns, lfunc);
    var w := BuildWorld(uid, ns, lfunc).value;
    assert w.edges == CreateEdges(ns, lfunc).value;
    forall i, j | 0 <= i < |ns| && 0 <= j < |ns| && i != j
      ensures Links(w, i, j)
    {
    }
    forall r | 0 <= r < |ns|
      ensures w.edges[r][r].None?
    {
      assert OnlyLinkAt(w.edges, ns, r, r);
    }
  }

  /**
   * A world built from a list of two or more nodes with distinct uids is,
   * when it builds at all, fully linked.
   */
  lemma ConstructNodesWired(c: Counters, elems: seq<Element>, lfunc: LengthFn)
    requires AllNodes(elems) && |elems| >= 2 && DistinctUids(NodesOf(elems))
    requires Construct(c, elems, lfunc).1.Success?
    ensures Wired(Construct(c, elems, lfunc).1.value)
  {
    assert Construct(c, elems, lfunc).1 == BuildWorld(c.nextWorld, NodesOf(elems), lfunc);
    BuiltDistinctWired(c.nextWorld, NodesOf(elems), lfunc);
  }

  /**
   * With per-world uids every list of positions gives a world whose nodes
   * are numbered 0..N-1 in order and whose table links every pair.
   */
  lemma ConstructScopedFromPositions(c: Counters, elems: seq<Element>, lfunc: LengthFn)
    requires AllPositions(elems) && |elems| > 0
    ensures ConstructScoped(c, elems, lfunc).1.Success?
    ensures var w := ConstructScoped(c, elems, lfunc).1.value;
            && |w.nodes| == |elems|
            && (forall k :: 0 <= k < |elems| ==> w.nodes[k] == Node(k, elems[k].position))
            && Wired(w) && Indexed(w.nodes)
  {
    assert !AllNodes(elems) by {
      assert !elems[0].NodeElem?;
    }
    var ps := PositionsOf(elems);
    var ns := WrapPositions(Counters(0, 0), ps).0;
    assert forall k :: 0 <= k < |ns| ==> ns[k] == Node(k, elems[k].position);
    ConstructScopedPositionsBranch(c, elems, lfunc);
    NumberedNodesWired(c.nextWorld, ns, lfunc);
    assert BuildWorld(c.nextWorld, ns, lfunc).value.nodes == ns;
  }

  // ---------------------------------------------------------------------------
  // nodes, data, find_note_by_id
  // ---------------------------------------------------------------------------

  /** The `nodes` property: the uids, in stored-node order. */
  function NodeIds(w: World): (r: seq<nat>)
    ensures |r| == |w.nodes|
    ensures forall i :: 0 <= i < |r| ==> r[i] == w.nodes[i].uid
  {
    seq(|w.nodes|, i requires 0 <= i < |w.nodes| => w.nodes[i].uid)
  }

  /** What `data` returns: a node, an edge, or `None`. */
  datatype Datum = NoDatum | NodeDatum(node: Node) | EdgeDatum(edge: Edge)

  /** numpy accepts indices -N..N-1; a negative one counts from the end. */
  predicate InBounds(i: int, n: nat) {
    -(n as int) <= i < n
  }

  function NumpyIndex(i: int, n: nat): (r: int)
    requires InBounds(i, n)
    ensures 0 <= r < n
  {
    if i < 0 then i + n else i
  }

  /**
   * `data(idx)` looks a node up by uid; `data(idx, idy)` reads the edge
   * table cell, `None` for an empty cell or an index numpy rejects.
   */
  function Data(w: World, idx: int, idy: Option<int>): (r: Datum)
    requires Square(w.edges, |w.nodes|)
    ensures idy.None? ==> !r.EdgeDatum? && (r.NodeDatum? <==> HasUid(w.nodes, idx))
    ensures idy.None? && r.NodeDatum? ==> exists i :: FirstWithUid(w.nodes, i, idx) && w.nodes[i] == r.node
    ensures idy.Some? ==> !r.NodeDatum?
    ensures idy.Some? ==>
              (r.EdgeDatum? <==> InBounds(idx, |w.nodes|) && InBounds(idy.value, |w.nodes|) &&
                                 w.edges[NumpyIndex(idx, |w.nodes|)][NumpyIndex(idy.value, |w.nodes|)].Some?)
    ensures r.EdgeDatum? ==> Some(r.edge) == w.edges[NumpyIndex(idx, |w.nodes|)][NumpyIndex(idy.value, |w.nodes|)]
  {
    var n := |w.nodes|;
    if idy.None? then
      match FindNode(w.nodes, idx)
      case Some(node) => NodeDatum(node)
      case None => NoDatum
    else if InBounds(idx, n) && InBounds(idy.value, n) then
      match w.edges[NumpyIndex(idx, n)][NumpyIndex(idy.value, n)]
      case Some(e) => EdgeDatum(e)
      case None => NoDatum
    else NoDatum
  }

  /**
   * The round trip the class documents: the uids from `nodes` give back the
   * nodes, a pair of them gives the edge between those very nodes, and a
   * node paired with itself gives `None`.
   */
  lemma DataRoundTrip(w: World, i: nat, j: nat)
    requires Wired(w) && i < |w.nodes| && j < |w.nodes|
    ensures Data(w, NodeIds(w)[i], None) == NodeDatum(w.nodes[i])
    ensures i != j ==> Data(w, NodeIds(w)[i], Some(NodeIds(w)[j])).EdgeDatum?
    ensures i != j ==> Data(w, NodeIds(w)[i], Some(NodeIds(w)[j])).edge.start == Data(w, NodeIds(w)[i], None).node
    ensures i != j ==> Data(w, NodeIds(w)[i], Some(NodeIds(w)[j])).edge.end == Data(w, NodeIds(w)[j], None).node
    ensures Data(w, NodeIds(w)[i], Some(NodeIds(w)[i])) == NoDatum
  {
    FindOwnUid(w.nodes, i);
    FindOwnUid(w.nodes, j);
    if i != j {
      assert Links(w, i, j);
    }
  }

  // ---------------------------------------------------------------------------
  // list_edges
  // ---------------------------------------------------------------------------

  /** `list_edges`: the edge at each listed pair, row by row in stored-node order. */
  function ListEdges(w: World): (r: seq<Edge>)
    requires Valid(w)
    ensures |r| == |EdgePairs(w.nodes)|
  {
    var ps := EdgePairs(w.nodes);
    seq(|ps|, k requires 0 <= k < |ps| => assert ps[k] in ps; w.edges[ps[k].0.uid][ps[k].1.uid].value)
  }

  /** On a wired world the k-th listed edge runs between the two nodes of the k-th visited pair. */
  lemma ListEdgesAt(w: World, k: nat)
    requires Valid(w) && Wired(w) && k < |ListEdges(w)|
    ensures ListEdges(w)[k].start == EdgePairs(w.nodes)[k].0
    ensures ListEdges(w)[k].end == EdgePairs(w.nodes)[k].1
  {
    var i, j := EdgePairsMember(w.nodes, k);
    assert Links(w, i, j);
  }

  /** The edge from node i to node j sits at `PairPosition(N, i, j)`. */
  lemma ListEdgesPlace(w: World, i: nat, j: nat)
    requires Valid(w) && Wired(w)
    requires i < |w.nodes| && j < |w.nodes| && i != j
    ensures 0 <= PairPosition(|w.nodes|, i, j) < |ListEdges(w)|
    ensures ListEdges(w)[PairPosition(|w.nodes|, i, j)].start == w.nodes[i]
    ensures ListEdges(w)[PairPosition(|w.nodes|, i, j)].end == w.nodes[j]
  {
    var r := if j < i then j else j - 1;
    EdgePairAt(w.nodes, i, r);
    assert Skip(i, r) == j;
    ListEdgesAt(w, PairPosition(|w.nodes|, i, j));
  }

  /**
   * On a wired world `list_edges` has N * (N - 1) entries; the edge from
   * node i to node j sits at `PairPosition(N, i, j)`, and no (start, end)
   * pair is listed twice.
   */
  lemma ListEdgesLayout(w: World)
    requires Valid(w) && Wired(w)
    ensures |ListEdges(w)| == |w.nodes| * (|w.nodes| - 1)
    ensures forall i, j :: 0 <= i < |w.nodes| && 0 <= j < |w.nodes| && i != j ==>
              0 <= PairPosition(|w.nodes|, i, j) < |ListEdges(w)| &&
              ListEdges(w)[PairPosition(|w.nodes|, i, j)].start == w.nodes[i] &&
              ListEdges(w)[PairPosition(|w.nodes|, i, j)].end == w.nodes[j]
    ensures forall k1, k2 :: 0 <= k1 < k2 < |ListEdges(w)| ==>
              ListEdges(w)[k1].start != ListEdges(w)[k2].start || ListEdges(w)[k1].end != ListEdges(w)[k2].end
  {
    var es := ListEdges(w);
    EdgePairsCount(w.nodes);
    EdgePairsDistinct(w.nodes);
    forall k | 0 <= k < |es|
      ensures es[k].start == EdgePairs(w.nodes)[k].0 && es[k].end == EdgePairs(w.nodes)[k].1
    {
      ListEdgesAt(w, k);
    }
    forall i, j | 0 <= i < |w.nodes| && 0 <= j < |w.nodes| && i != j
      ensures 0 <= PairPosition(|w.nodes|, i, j) < |es| && es[PairPosition(|w.nodes|, i, j)].start == w.nodes[i] && es[PairPosition(|w.nodes|, i, j)].end == w.nodes[j]
    {
      ListEdgesPlace(w, i, j);
    }
  }

  // ---------------------------------------------------------------------------
  // reset_pheromone
  // ---------------------------------------------------------------------------

  function ResetCell(cell: Option<Edge>, level: real): Option<Edge> {
    match cell
    case Some(e) => Some(e.(pheromone := level))
    case None => None
  }

  /**
   * `reset_pheromone(level)`: every edge in the table gets `level`; empty
   * cells stay empty and nothing else about any edge changes.
   */
  function ResetPheromone(w: World, level: real): (r: World)
    ensures r.uid == w.uid && r.nodes == w.nodes && r.lfunc == w.lfunc
    ensures |r.edges| == |w.edges| && forall row :: 0 <= row < |w.edges| ==> |r.edges[row]| == |w.edges[row]|
    ensures forall row, c :: 0 <= row < |w.edges| && 0 <= c < |w.edges[row]| ==>
              (r.edges[row][c].Some? <==> w.edges[row][c].Some?)
    ensures forall row, c :: 0 <= row < |w.edges| && 0 <= c < |w.edges[row]| && w.edges[row][c].Some? ==>
              && r.edges[row][c].value.start == w.edges[row][c].value.start
              && r.edges[row][c].value.end == w.edges[row][c].value.end
              && r.edges[row][c].value.lfunc == w.edges[row][c].value.lfunc
              && r.edges[row][c].value.pheromone == level
  {
    w.(edges := seq(|w.edges|, row requires 0 <= row < |w.edges| =>
                  seq(|w.edges[row]|, c requires 0 <= c < |w.edges[row]| => ResetCell(w.edges[row][c], level))))
  }

  /** `reset_pheromone()` with its default level: every edge gets 0.01 and nothing else changes. */
  function ResetPheromoneDefault(w: World): (r: World)
    ensures r.uid == w.uid && r.nodes == w.nodes && r.lfunc == w.lfunc
    ensures |r.edges| == |w.edges| && forall row :: 0 <= row < |w.edges| ==> |r.edges[row]| == |w.edges[row]|
    ensures forall row, c :: 0 <= row < |w.edges| && 0 <= c < |w.edges[row]| ==>
              (r.edges[row][c].Some? <==> w.edges[row][c].Some?)
    ensures forall row, c :: 0 <= row < |w.edges| && 0 <= c < |w.edges[row]| && w.edges[row][c].Some? ==>
              r.edges[row][c].value == w.edges[row][c].value.(pheromone := 0.01)
  {
    ResetPheromone(w, DefaultResetLevel)
  }

  /** Resetting keeps both world invariants. */
  lemma ResetKeepsInvariants(w: World, level: real)
    ensures Valid(w) ==> Valid(ResetPheromone(w, level))
    ensures Wired(w) ==> Wired(ResetPheromone(w, level))
  {
    var r := ResetPheromone(w, level);
    if Wired(w) {
      forall i, j | 0 <= i < |w.nodes| && 0 <= j < |w.nodes| && i != j
        ensures Links(r, i, j)
      {
        assert Links(w, i, j);
      }
    }
  }

  /** Only the pheromone level changes: a reset after a reset is the last reset. */
  lemma ResetTwice(w: World, a: real, b: real)
    ensures ResetPheromone(ResetPheromone(w, a), b) == ResetPheromone(w, b)
  {
    var r1 := ResetPheromone(ResetPheromone(w, a), b);
    var r2 := ResetPheromone(w, b);
    forall row | 0 <= row < |w.edges|
      ensures r1.edges[row] == r2.edges[row]
    {
    }
    assert r1.edges == r2.edges;
  }

  /**
   * After `reset_pheromone(level)`, `list_edges` lists the same links in the
   * same order, each now at `level`.
   */
  lemma ResetListEdges(w: World, level: real)
    requires Valid(w)
    ensures Valid(ResetPheromone(w, level))
    ensures |ListEdges(ResetPheromone(w, level))| == |ListEdges(w)|
    ensures forall k :: 0 <= k < |ListEdges(w)| ==>
              && ListEdges(ResetPheromone(w, level))[k].start == ListEdges(w)[k].start
              && ListEdges(ResetPheromone(w, level))[k].end == ListEdges(w)[k].end
              && ListEdges(ResetPheromone(w, level))[k].lfunc == ListEdges(w)[k].lfunc
              && ListEdges(ResetPheromone(w, level))[k].pheromone == level
  {
    ResetKeepsInvariants(w, level);
    var ps := EdgePairs(w.nodes);
    forall k | 0 <= k < |ps|
      ensures ps[k] in ps
    {
    }
  }

  // ---------------------------------------------------------------------------
  // get_pheromone_matrix
  // ---------------------------------------------------------------------------

  function UidPairRows(ids: seq<nat>): (rows: seq<seq<(nat, nat)>>)
    ensures |rows| == |ids|
    ensures forall a :: 0 <= a < |ids| ==> |rows[a]| == |ids| && forall b :: 0 <= b < |ids| ==> rows[a][b] == (ids[a], ids[b])
  {
    seq(|ids|, a requires 0 <= a < |ids| => seq(|ids|, b requires 0 <= b < |ids| => (ids[a], ids[b])))
  }

  /** One step of the matrix loops: 0.0 when both uids find the same node, else the edge's pheromone. */
  function MatrixWrite(w: World, m: nat, n: nat): (r: Write<real, WorldError>)
    requires Square(w.edges, |w.nodes|)
    ensures r.row == m && r.col == n
  {
    Write(m, n,
      if FindNode(w.nodes, m) != FindNode(w.nodes, n) then
        match Data(w, m, Some(n))
        case EdgeDatum(e) => Success(e.pheromone)
        case _ => Failure(NoPheromoneOnNone)
      else Success(0.0))
  }

  /** The uid pairs the matrix loops visit, row by row. */
  function MatrixPairs(w: World): (ps: seq<(nat, nat)>)
  {
    Flatten(UidPairRows(NodeIds(w)))
  }

  /** The writes the matrix loops perform, in loop order. */
  function MatrixWrites(w: World): (ws: seq<Write<real, WorldError>>)
    requires Square(w.edges, |w.nodes|)
    ensures |ws| == |MatrixPairs(w)|
    ensures forall k :: 0 <= k < |ws| ==> ws[k] == MatrixWrite(w, MatrixPairs(w)[k].0, MatrixPairs(w)[k].1)
  {
    var ps := MatrixPairs(w);
    seq(|ps|, k requires 0 <= k < |ps| => MatrixWrite(w, ps[k].0, ps[k].1))
  }

  /**
   * `get_pheromone_matrix`: an uninitialised N x N float array (`None` here
   * marks a cell never written) filled by a loop over every pair of uids.
   */
  function PheromoneMatrix(w: World): (r: Result<Table<real>, WorldError>)
    requires Square(w.edges, |w.nodes|)
    ensures r.Success? ==> Square(r.value, |w.nodes|)
    ensures r.Failure? ==> r.error == IndexOutOfBounds || r.error == NoPheromoneOnNone
    ensures (exists i :: 0 <= i < |w.nodes| && w.nodes[i].uid >= |w.nodes|) ==> r.Failure?
    ensures r.Failure? ==> FirstBad(MatrixWrites(w), |w.nodes|) < |MatrixWrites(w)|
    ensures r.Failure? ==>
              (r.error == NoPheromoneOnNone <==> MatrixWrites(w)[FirstBad(MatrixWrites(w), |w.nodes|)].value.Failure?)
  {
    MatrixWritesFail(w);
    ApplyWrites(Blank(|w.nodes|), MatrixWrites(w), IndexOutOfBounds)
  }

  /** A matrix step only raises for a missing edge, and a uid of N or more stops the run. */
  lemma MatrixWritesFail(w: World)
    requires Square(w.edges, |w.nodes|)
    ensures forall k :: 0 <= k < |MatrixWrites(w)| && MatrixWrites(w)[k].value.Failure? ==>
              MatrixWrites(w)[k].value.error == NoPheromoneOnNone
    ensures (exists i :: 0 <= i < |w.nodes| && w.nodes[i].uid >= |w.nodes|) ==>
              ApplyWrites(Blank(|w.nodes|), MatrixWrites(w), IndexOutOfBounds).Failure?
  {
    forall k | 0 <= k < |MatrixWrites(w)| && MatrixWrites(w)[k].value.Failure?
      ensures MatrixWrites(w)[k].value.error == NoPheromoneOnNone
    {
      var (m, n) := MatrixPairs(w)[k];
      MatrixWriteErrors(w, m, n);
    }
    if i :| 0 <= i < |w.nodes| && w.nodes[i].uid >= |w.nodes| {
      MatrixDiagonalOutside(w, i);
    }
  }

  lemma MatrixWriteErrors(w: World, m: nat, n: nat)
    requires Square(w.edges, |w.nodes|)
    ensures MatrixWrite(w, m, n).value.Failure? ==> MatrixWrite(w, m, n).value.error == NoPheromoneOnNone
  {
  }

  /** The step for node i with itself targets cell (uid, uid), outside the table when the uid is N or more. */
  lemma MatrixDiagonalOutside(w: World, i: nat)
    requires Square(w.edges, |w.nodes|) && i < |w.nodes| && w.nodes[i].uid >= |w.nodes|
    ensures ApplyWrites(Blank(|w.nodes|), MatrixWrites(w), IndexOutOfBounds).Failure?
  {
    var t := Blank<real>(|w.nodes|);
    var k := MatrixDiagonalStep(w, i);
    ApplyWritesOutside(t, MatrixWrites(w), IndexOutOfBounds, k);
  }

  /** Some step of the matrix loops writes to row `uid` of node i. */
  lemma MatrixDiagonalStep(w: World, i: nat) returns (k: nat)
    requires Square(w.edges, |w.nodes|) && i < |w.nodes|
    ensures k < |MatrixWrites(w)| && MatrixWrites(w)[k].row == w.nodes[i].uid
  {
    k := MatrixPairIndex(w, i, i);
    assert MatrixPairs(w)[k].0 == w.nodes[i].uid;
  }

  /** The k-th pair visited is the uid pair of some nodes a and b. */
  lemma MatrixPairAt(w: World, k: nat) returns (a: nat, b: nat)
    requires k < |MatrixPairs(w)|
    ensures a < |w.nodes| && b < |w.nodes|
    ensures Offset(UidPairRows(NodeIds(w)), a) + b == k
    ensures MatrixPairs(w)[k] == (w.nodes[a].uid, w.nodes[b].uid)
  {
    a, b := FlattenAt(UidPairRows(NodeIds(w)), k);
  }

  /** In a wired, indexed world each write succeeds, lands in the table and carries 0 or the edge's pheromone. */
  lemma MatrixWriteValue(w: World, k: nat)
    requires Wired(w)
    requires k < |MatrixPairs(w)|
    ensures var (m, n) := MatrixPairs(w)[k];
            && MatrixWrites(w)[k].value.Success? && InRange(MatrixWrites(w)[k], |w.nodes|)
            && (m != n ==> w.edges[m][n].Some?)
            && MatrixWrites(w)[k].value.value == (if m == n then 0.0 else w.edges[m][n].value.pheromone)
  {
    var a, b := MatrixPairAt(w, k);
    MatrixWriteOfNodes(w, a, b);
  }

  /** The step for the uids of nodes a and b writes 0 when a is b and the pheromone of their edge otherwise. */
  lemma MatrixWriteOfNodes(w: World, a: nat, b: nat)
    requires Wired(w) && a < |w.nodes| && b < |w.nodes|
    ensures var (m, n) := (w.nodes[a].uid, w.nodes[b].uid);
            && MatrixWrite(w, m, n).value.Success? && InRange(MatrixWrite(w, m, n), |w.nodes|)
            && (m != n ==> w.edges[m][n].Some?)
            && MatrixWrite(w, m, n).value.value == (if m == n then 0.0 else w.edges[m][n].value.pheromone)
  {
    FindOwnUid(w.nodes, a);
    FindOwnUid(w.nodes, b);
    if a != b {
      assert Links(w, a, b);
    }
  }

  /** With distinct uids no cell is written twice. */
  lemma MatrixWritesDistinct(w: World)
    requires Square(w.edges, |w.nodes|) && DistinctUids(w.nodes)
    ensures DistinctKeys(MatrixWrites(w))
  {
    var ws := MatrixWrites(w);
    forall k1, k2 | 0 <= k1 < k2 < |ws|
      ensures ws[k1].row != ws[k2].row || ws[k1].col != ws[k2].col
    {
      var a1, b1 := MatrixPairAt(w, k1);
      var a2, b2 := MatrixPairAt(w, k2);
    }
  }

  /** The pair of row a, column b, and where it lands among the visited pairs. */
  lemma MatrixPairIndex(w: World, a: nat, b: nat) returns (k: nat)
    requires a < |w.nodes| && b < |w.nodes|
    ensures k < |MatrixPairs(w)| && MatrixPairs(w)[k] == (w.nodes[a].uid, w.nodes[b].uid)
  {
    var rows := UidPairRows(NodeIds(w));
    assert rows[a][b] == (w.nodes[a].uid, w.nodes[b].uid);
    FlattenIndex(rows, a, b);
    k := Offset(rows, a) + b;
  }

  /** With uids 0..N-1 the loops visit every cell. */
  lemma MatrixPairsCover(w: World, r: nat, c: nat) returns (k: nat)
    requires Indexed(w.nodes) && r < |w.nodes| && c < |w.nodes|
    ensures k < |MatrixPairs(w)| && MatrixPairs(w)[k] == (r, c)
  {
    assert HasUid(w.nodes, r) && HasUid(w.nodes, c);
    var a :| 0 <= a < |w.nodes| && w.nodes[a].uid == r;
    var b :| 0 <= b < |w.nodes| && w.nodes[b].uid == c;
    k := MatrixPairIndex(w, a, b);
  }

  /**
   * When the uids are exactly 0..N-1, every cell of the matrix is written:
   * 0 on the diagonal and the pheromone of edge (r, c) off it.
   */
  lemma PheromoneMatrixCells(w: World)
    requires Wired(w)
    ensures PheromoneMatrix(w).Success?
    ensures forall r, c :: 0 <= r < |w.nodes| && 0 <= c < |w.nodes| && r == c ==> PheromoneMatrix(w).value[r][c] == Some(0.0)
    ensures forall r, c :: 0 <= r < |w.nodes| && 0 <= c < |w.nodes| && r != c ==>
              w.edges[r][c].Some? && PheromoneMatrix(w).value[r][c] == Some(w.edges[r][c].value.pheromone)
  {
    WiredIndexed(w);
    var n := |w.nodes|;
    var ws := MatrixWrites(w);
    forall k | 0 <= k < |ws|
      ensures ws[k].value.Success? && InRange(ws[k], n)
    {
      MatrixWriteValue(w, k);
    }
    MatrixWritesDistinct(w);
    ApplyWritesCells(Blank(n), ws, IndexOutOfBounds);
    forall r, c | 0 <= r < n && 0 <= c < n
      ensures r != c ==> w.edges[r][c].Some?
      ensures PheromoneMatrix(w).value[r][c] == Some(if r == c then 0.0 else w.edges[r][c].value.pheromone)
    {
      var k := MatrixPairsCover(w, r, c);
      MatrixWriteValue(w, k);
    }
  }

  /** Right after `reset_pheromone(level)` the matrix is `level` off the diagonal and 0 on it. */
  lemma ResetThenMatrix(w: World, level: real)
    requires Wired(w)
    ensures PheromoneMatrix(ResetPheromone(w, level)).Success?
    ensures forall r, c :: 0 <= r < |w.nodes| && 0 <= c < |w.nodes| ==>
              PheromoneMatrix(ResetPheromone(w, level)).value[r][c] == Some(if r == c then 0.0 else level)
  {
    ResetKeepsInvariants(w, level);
    PheromoneMatrixCells(ResetPheromone(w, level));
  }
}

=== FILE: wrappers.dfy ===
/** `Option` and `Result`, shared by every module of the model. */
module Wrappers {

  /** Python's `None` next to a present value. */
  datatype Option<+T> = None | Some(value: T)

  /** A value, or the exception an operation raises instead of returning. */
  datatype Result<+T, +E> = Success(value: T) | Failure(error: E)
}
